=== FILE: README.md ===
# Rewarded ads and Play Games sign-in, modelled in Dafny

This project models two small state machines from an Android helper library
for games.

**The dual-slot rewarded-ad controller.** It exists twice in the library, almost
line for line: `RewardedVideoService` and `RewardedInterstitialService`. The
controller keeps up to two loaded ads (slot A and slot B) and one loading flag
per slot. A rotation counter, `currentSlot`, chooses which slot to show next,
and an `isShowing` flag guards the full-screen display. For each display it
tells its listener whether the user earned the reward. A failed load is retried
after 5 seconds. A failed display falls back to the other slot and then reloads.

**The Play Games sign-in sequence of `LoginService`.** A silent authentication
check falls through to a manual sign-in when it does not report an
authenticated player. Either path ends in a server auth-code request. One
`signingIn` flag keeps the manual sign-in and the auth-code request from being
started twice. Failures are turned into user-facing messages.

Both machines are written as immutable records with one pure step function per
event, and every step returns the new state together with a trace of outputs:

- the SDK calls it makes (a load request, a show, `isAuthenticated()`,
  `signIn()`, `requestServerSideAccess`);
- the toasts it shows;
- the listener callbacks it fires.

SDK results are input events, and so are lifecycle calls, a due retry and the
first `loadAllRewardedAds`. The first `init` starts an SDK-initialisation
thread. That thread hands the load to `CommonUtil.runOnUiThread` with the
Activity it sees at that moment (`SdkInitialised`). `runOnUiThread` drops the
load for good when that Activity is gone; otherwise the load runs later on the
UI thread (`InitialLoadDue`). Each callback and each runnable posted to the UI
thread is one atomic step. Events may come in any order:

- a load callback or a due retry for a slot with nothing outstanding is a
  no-op;
- a dismissal or a show failure with no display running is a no-op (the code's
  callbacks have no such guard; see "## Left out");
- a reward callback always reaches the listener, as the code's unguarded
  reward callback does.

Ad objects are fresh natural-number tokens, so "the same ad" is an identity
test, as in the Java code.

Files:

- `wrappers.dfy`: `Option` and `Result`.
- `java_lang.dfy`: the `java.lang` behaviour the services rely on, written out:
  - `String.trim()` and blankness;
  - 32-bit `int` increment with wrap-around;
  - Java's truncating `%`;
  - `Integer.toString`, with its inverse.
- `rewarded_ads.dfy` (module `RewardedAds`): the controller.
- `rewarded_ads_proofs.dfy` (module `RewardedAdsProofs`): its invariant and
  properties.
- `login.dfy` (module `Login`): the sign-in sequence.
- `login_proofs.dfy` (module `LoginProofs`): its invariant and properties.

The controller carries its slot-selection rule (`Rotation`).
`NewController(JavaRemainder)` selects as the code does, with Java's
truncating `%`. `NewController(FloorMod)` uses the parity the rotation is
evidently meant to use; the two differ only once the counter has wrapped to
negative values (see "## Findings"). Every invariant and notification property
is proved for both rules.

The controller rows below cite `RewardedVideoService.java`.
`RewardedInterstitialService.java` runs the same code, so the same members
model it too. Its lines are 22 earlier up to the comment before the posted
load in `initializeMobileAdsSdk`. One extra commented-out line follows there,
and from the posted load on its lines are 21 earlier:

| RewardedInterstitialService.java | what it is |
|---|---|
| 59-72 | `init` |
| 111-204 | `showRewardedInterstitialAd` and its callbacks |
| 209-229 | `getAvailableAd` |
| 234-248 | `showBackupAd` |
| 253-261 | `clearUsedAd` |
| 266-314 | `loadRewardedAdForSlot` |
| 319-329 | `retryLoadAd` |
| 335-347 | `hasAvailableAd`, `getLoadedAdCount` |

The differences do not change the logic. They are:

- the ad class and its load callback (`RewardedInterstitialAd`);
- the request type (`AdManagerAdRequest`);
- the package of the listener and of `CommonUtil`;
- comments, including one commented-out line in `initializeMobileAdsSdk`.

## Model

| member | source | states |
|---|---|---|
| JavaLang.IsBlankMeansTrimsToEmpty | google-iab/src/main/java/games/moisoni/google_iab/service/RewardedVideoService.java:84 | a string is blank (all chars at most U+0020) exactly when `trim()` leaves it empty, which is the test `init` applies |
| JavaLang.Trim | google-iab/src/main/java/games/moisoni/google_iab/service/RewardedVideoService.java:84 | `trim()` yields the piece of the string after its leading blank chars with only blank chars after it, and that piece neither starts nor ends with a blank char |
| JavaLang.Increment32 | google-iab/src/main/java/games/moisoni/google_iab/service/RewardedVideoService.java:235 | `incrementAndGet` on the counter is x + 1 modulo 2^32 inside the Java `int` range |
| JavaLang.IncrementFlipsParity | google-iab/src/main/java/games/moisoni/google_iab/service/RewardedVideoService.java:232-238 | advancing the counter always flips its parity, across the wrap too |
| JavaLang.TruncRem | google-iab/src/main/java/games/moisoni/google_iab/service/RewardedVideoService.java:232 | Java's `%` satisfies a = q*b + r with r taking the sign of the dividend |
| JavaLang.IntRoundTrip | google-iab/src/main/java/games/moisoni/google_ad/services/LoginService.java:274 | the decimal text `Integer.toString` gives for any int reads back as that int |
| JavaLang.IntToStringInjective | google-iab/src/main/java/games/moisoni/google_ad/services/LoginService.java:274 | different codes print differently |
| RewardedAds.NewController | google-iab/src/main/java/games/moisoni/google_iab/service/RewardedVideoService.java:48-61 | a fresh controller, with the given selection rule, has both slots empty, nothing loading, counter 0, nothing showing, no Activity and no load posted |
| RewardedAds.LoadedAdCount | google-iab/src/main/java/games/moisoni/google_iab/service/RewardedVideoService.java:356-368 | `getLoadedAdCount` is the number of filled slots, so at most 2; it is positive exactly when `hasAvailableAd` holds, and 2 exactly when both slots are filled |
| RewardedAds.Select | google-iab/src/main/java/games/moisoni/google_iab/service/RewardedVideoService.java:230-250 | if the slot the counter prefers is filled, its ad is returned and the counter advances by one; otherwise A, else B, is returned and the counter stays; the result is empty exactly when both slots are |
| RewardedAds.SelectAsWritten | google-iab/src/main/java/games/moisoni/google_iab/service/RewardedVideoService.java:230-250 | the selection the code makes: the slot named by Java's `%` of the counter (0 for A, 1 for B, -1 for neither) is returned with the counter advanced when it is filled; otherwise A, else B, is returned and the counter stays; the result is empty exactly when both slots are |
| RewardedAds.ClearUsedAd | google-iab/src/main/java/games/moisoni/google_iab/service/RewardedVideoService.java:274-282 | only the slot holding the given ad (A first) is emptied; if neither holds it nothing changes; no other field changes |
| RewardedAds.LoadSlot | google-iab/src/main/java/games/moisoni/google_iab/service/RewardedVideoService.java:287-311 | a load for a slot is issued, with that slot's loading flag set first, exactly when the Activity is there, the slot is empty and it is not loading; otherwise nothing happens |
| RewardedAds.LoadAll | google-iab/src/main/java/games/moisoni/google_iab/service/RewardedVideoService.java:127-130 | reloading issues only load requests, at most two, all for the stored unit id; afterwards, with an Activity, each slot is filled or loading; nothing but the loading flags changes |
| RewardedAds.Show | google-iab/src/main/java/games/moisoni/google_iab/service/RewardedVideoService.java:132-156 | selection under the controller's rule runs first and its counter change stays; with no ad there is no show and both slots are reloaded; without an Activity or while showing nothing else happens; otherwise the selected ad, which is still in its slot, is shown and a display starts unrewarded |
| RewardedAds.ShowBackup | google-iab/src/main/java/games/moisoni/google_iab/service/RewardedVideoService.java:255-269 | the backup is a full show attempt, made only when some slot is filled and nothing is showing |
| RewardedAds.EarnReward | google-iab/src/main/java/games/moisoni/google_iab/service/RewardedVideoService.java:216-222 | every reward callback sends `onRewardEarned(true)` when a listener is set, also after its display has ended; it marks the running display rewarded, and with no display running it changes nothing else |
| RewardedAds.Dismiss | google-iab/src/main/java/games/moisoni/google_iab/service/RewardedVideoService.java:160-177 | dismissal starts with `onRewardEarned(false)` exactly when the display was not rewarded and a listener is set, and continues with load requests only |
| RewardedAds.FailToShow | google-iab/src/main/java/games/moisoni/google_iab/service/RewardedVideoService.java:180-198 | a failed display clears its ad and the showing flag, then sends the reward flag and the failure message, then makes a backup attempt, then reloads, with outputs in that order |
| RewardedAds.CompleteLoad | google-iab/src/main/java/games/moisoni/google_iab/service/RewardedVideoService.java:313-323 | a finished load stores a new ad in its own slot and clears that slot's loading flag; with no load outstanding it does nothing |
| RewardedAds.FailLoad | google-iab/src/main/java/games/moisoni/google_iab/service/RewardedVideoService.java:326-332 | a failed load clears the loading flag, leaves the slot empty and makes one more retry of that slot due |
| RewardedAds.RunRetry | google-iab/src/main/java/games/moisoni/google_iab/service/RewardedVideoService.java:340-350 | a due retry is a load request for the same slot, and nothing when none is due |
| RewardedAds.Init | google-iab/src/main/java/games/moisoni/google_iab/service/RewardedVideoService.java:81-113 | `init` fails exactly on a blank unit id, before anything is set; otherwise it stores the unit id, Activity and listener and requests no load itself; only the first success starts the SDK-initialisation thread |
| RewardedAdsProofs.LoadAllLoadsEachSlot | google-iab/src/main/java/games/moisoni/google_iab/service/RewardedVideoService.java:127-130 | reloading both slots is the single-slot load for A followed by the one for B |
| RewardedAdsProofs.NewControllerInv | google-iab/src/main/java/games/moisoni/google_iab/service/RewardedVideoService.java:48-61 | the fresh controller satisfies the invariant: loading implies empty, the two slots hold different ads, "showing" iff a display runs, the displayed ad is still in a slot, and an Activity implies a non-blank unit id |
| RewardedAdsProofs.InitPreservesInv | google-iab/src/main/java/games/moisoni/google_iab/service/RewardedVideoService.java:81-94 | a successful `init` keeps the invariant |
| RewardedAdsProofs.InitialLoadPreservesInv | google-iab/src/main/java/games/moisoni/google_iab/service/RewardedVideoService.java:105-113 | running the posted initial load keeps the invariant |
| RewardedAds.PostInitialLoad | google-iab/src/main/java/games/moisoni/utils/CommonUtil.java:23-27 | the SDK-initialisation thread's hand-over sends nothing; it queues the first load exactly when the Activity is there at that moment and otherwise drops it for good |
| RewardedAdsProofs.FirstInitPostsInitialLoad | google-iab/src/main/java/games/moisoni/google_iab/service/RewardedVideoService.java:100-113 | the first `init` starts the thread, which queues the load while the Activity is there; when the load runs, each slot is filled or loading, every request carries the unit id, and nothing stays pending |
| RewardedAdsProofs.InitialLoadUsesLatestUnitId | google-iab/src/main/java/games/moisoni/google_iab/service/RewardedVideoService.java:81-113 | a second `init` before the first load runs, before or after the thread queues it: both loads carry the second unit id |
| RewardedAdsProofs.ActivityLostBeforeInitialLoad | google-iab/src/main/java/games/moisoni/google_iab/service/RewardedVideoService.java:105-113 | if the Activity goes after the load is queued and before it runs, that load requests nothing |
| RewardedAdsProofs.InitialLoadDroppedWithoutActivity | google-iab/src/main/java/games/moisoni/utils/CommonUtil.java:23-27 | if the Activity is gone when the thread hands over the load, the load is dropped; a later `init` brings an Activity back but queues nothing, so no first load ever runs |
| RewardedAdsProofs.ShowPreservesInv | google-iab/src/main/java/games/moisoni/google_iab/service/RewardedVideoService.java:132-156 | a show attempt keeps the invariant |
| RewardedAdsProofs.DismissPreservesInv | google-iab/src/main/java/games/moisoni/google_iab/service/RewardedVideoService.java:160-177 | dismissal keeps the invariant |
| RewardedAdsProofs.FailToShowPreservesInv | google-iab/src/main/java/games/moisoni/google_iab/service/RewardedVideoService.java:180-198 | a failed display, including its backup show, keeps the invariant |
| RewardedAdsProofs.CompleteLoadPreservesInv | google-iab/src/main/java/games/moisoni/google_iab/service/RewardedVideoService.java:313-323 | a finished load keeps the invariant: the new ad differs from the other slot's |
| RewardedAdsProofs.RetryPreservesInv | google-iab/src/main/java/games/moisoni/google_iab/service/RewardedVideoService.java:340-350 | running a due retry keeps the invariant |
| RewardedAdsProofs.StepPreservesInv | google-iab/src/main/java/games/moisoni/google_iab/service/RewardedVideoService.java:127-376 | every event keeps the invariant |
| RewardedAdsProofs.RunPreservesInv | google-iab/src/main/java/games/moisoni/google_iab/service/RewardedVideoService.java:127-376 | every sequence of events keeps the invariant |
| RewardedAdsProofs.ApplyPreservesInv | google-iab/src/main/java/games/moisoni/google_iab/service/RewardedVideoService.java:81-376 | every sequence of `init` calls and events, in any interleaving, keeps the invariant; a rejected `init` changes nothing |
| RewardedAdsProofs.ReachableInv | google-iab/src/main/java/games/moisoni/google_iab/service/RewardedVideoService.java:81-376 | under either selection rule, every state reached from a fresh controller by `init` calls and events in any interleaving (a re-`init` after the Activity is recreated, say) satisfies the invariant |
| RewardedAdsProofs.ClearUsedAdFreesOnlyThatAd | google-iab/src/main/java/games/moisoni/google_iab/service/RewardedVideoService.java:274-282 | afterwards neither slot holds the used ad, the other slot is unchanged, and the loaded-ad count drops by one exactly when the ad was held |
| RewardedAdsProofs.CompleteLoadFillsOnlyItsSlot | google-iab/src/main/java/games/moisoni/google_iab/service/RewardedVideoService.java:313-323 | a successful load fills only its own slot, with an ad neither slot held, and leaves the other slot, the counter and the display alone |
| RewardedAdsProofs.FailLoadSchedulesRetry | google-iab/src/main/java/games/moisoni/google_iab/service/RewardedVideoService.java:326-350 | a failed load leaves its slot empty with one more retry due, and that retry loads the same slot again |
| RewardedAdsProofs.LoadAllCounts | google-iab/src/main/java/games/moisoni/google_iab/service/RewardedVideoService.java:127-130 | reloading requests a load for a slot exactly when that slot goes from idle to loading |
| RewardedAdsProofs.PreloadIdempotent | google-iab/src/main/java/games/moisoni/google_iab/service/RewardedVideoService.java:373-376 | a second `preloadAds` straight after the first does nothing |
| RewardedAdsProofs.StepLoadsOnlyIdleSlots | google-iab/src/main/java/games/moisoni/google_iab/service/RewardedVideoService.java:299-307 | no event requests more than one load of a slot, and a requested load always finds its slot idle and leaves it loading, so there is at most one outstanding load per slot |
| RewardedAdsProofs.ShowShowsAtMostOnce | google-iab/src/main/java/games/moisoni/google_iab/service/RewardedVideoService.java:148-151 | a show attempt shows at most one ad, and none while a display runs |
| RewardedAdsProofs.DismissShowsNothing | google-iab/src/main/java/games/moisoni/google_iab/service/RewardedVideoService.java:160-177 | dismissal never shows an ad |
| RewardedAdsProofs.FailToShowShowsAtMostOnce | google-iab/src/main/java/games/moisoni/google_iab/service/RewardedVideoService.java:180-198 | a failed display leads to exactly one backup show when a slot is still filled and the Activity is there, otherwise none, and never re-shows the failed ad |
| RewardedAdsProofs.StepShowsAtMostOnce | google-iab/src/main/java/games/moisoni/google_iab/service/RewardedVideoService.java:132-198 | no event shows more than one ad; a show always leaves a display running; only a show request with nothing running or a failed display shows anything |
| RewardedAdsProofs.RejectedShowStillAdvancesCounter | google-iab/src/main/java/games/moisoni/google_iab/service/RewardedVideoService.java:133-151 | with the counter at 0, both slots filled and a display running, a show request sends nothing and still moves the counter to 1, because the slot is chosen before the `isShowing` check |
| RewardedAdsProofs.ShowWithNothingLoaded | google-iab/src/main/java/games/moisoni/google_iab/service/RewardedVideoService.java:133-140 | with both slots empty and idle, a show request shows nothing and requests loads of A then B |
| RewardedAdsProofs.ContinueStep | google-iab/src/main/java/games/moisoni/google_iab/service/RewardedVideoService.java:153-222 | one event other than dismissal or show failure keeps the running display and its ad, shows nothing, sends no `false`, and a reward callback sends one `true` |
| RewardedAdsProofs.DuringDisplay | google-iab/src/main/java/games/moisoni/google_iab/service/RewardedVideoService.java:153-222 | over any events that do not end the display, it keeps its ad, no `onRewardEarned(false)` is sent, one `true` is sent per reward callback, and the display is rewarded iff one fired |
| RewardedAdsProofs.RunConcat | google-iab/src/main/java/games/moisoni/google_iab/service/RewardedVideoService.java:127-376 | running two event sequences in turn is running their concatenation |
| RewardedAdsProofs.DismissNotifications | google-iab/src/main/java/games/moisoni/google_iab/service/RewardedVideoService.java:160-177 | dismissal sends no `true`, sends one `false` iff the display was not rewarded, shows nothing, ends the display and removes its ad from both slots |
| RewardedAdsProofs.DisplayNotifications | google-iab/src/main/java/games/moisoni/google_iab/service/RewardedVideoService.java:153-222 | over a whole display ended by dismissal, `true` is sent once per reward callback and `false` once exactly when there was none |
| RewardedAdsProofs.RewardThenDismiss | google-iab/src/main/java/games/moisoni/google_iab/service/RewardedVideoService.java:160-177 | reward then dismissal yields exactly one `true` and no `false` |
| RewardedAdsProofs.DismissWithoutReward | google-iab/src/main/java/games/moisoni/google_iab/service/RewardedVideoService.java:160-177 | dismissal alone yields exactly one `false` and no `true` |
| RewardedAdsProofs.LateRewardNotifies | google-iab/src/main/java/games/moisoni/google_iab/service/RewardedVideoService.java:216-222 | with no display running, a reward callback still sends exactly one `onRewardEarned(true)` to a set listener |
| RewardedAdsProofs.LateRewardAfterDismissal | google-iab/src/main/java/games/moisoni/google_iab/service/RewardedVideoService.java:160-222 | a reward callback after a dismissal without reward: the listener hears one `false` and then one `true` |
| RewardedAdsProofs.FailureToShowOrder | google-iab/src/main/java/games/moisoni/google_iab/service/RewardedVideoService.java:180-198 | a failed display first clears its ad, then outputs the reward flag and the failure message, then at most one backup show of a different ad, then loads |
| RewardedAdsProofs.RotationScenario | google-iab/src/main/java/games/moisoni/google_iab/service/RewardedVideoService.java:230-250 | with only A filled and counter 0, A is shown, the counter becomes 1 and dismissal empties A |
| RewardedAdsProofs.BackupScenario | google-iab/src/main/java/games/moisoni/google_iab/service/RewardedVideoService.java:255-269 | when A's display fails with B filled, B is shown as the backup |
| RewardedAdsProofs.RotationAlternates | google-iab/src/main/java/games/moisoni/google_iab/service/RewardedVideoService.java:230-250 | with both slots filled, two selections in a row return both ads, one each, and the preferred slot alternates at every counter value, including across the 32-bit wrap |
| RewardedAdsProofs.SelectMatchesSourceOnNonNegative | google-iab/src/main/java/games/moisoni/google_iab/service/RewardedVideoService.java:232 | for a non-negative counter the selection used by the model is exactly the one the code computes |
| RewardedAdsProofs.AsWrittenRotationStalls | google-iab/src/main/java/games/moisoni/google_iab/service/RewardedVideoService.java:232-240 | for a negative odd counter the code's selection never advances the counter and returns A whenever A is filled |
| RewardedAdsProofs.AsWrittenStallAfterWrap | google-iab/src/main/java/games/moisoni/google_iab/service/RewardedVideoService.java:232-240 | from the largest int with both slots filled, the code returns B, then A, then A forever, with the counter stuck at the smallest int plus one |
| RewardedAdsProofs.ShowAtStalledCounter | google-iab/src/main/java/games/moisoni/google_iab/service/RewardedVideoService.java:230-250 | at the stalled counter with both slots filled, a show request under the code's rule shows A's ad and keeps the counter, under the corrected rule shows B's ad and advances it |
| Login.ResolveSignInError | google-iab/src/main/java/games/moisoni/google_ad/services/LoginService.java:266-278 | a non-API error maps to `safeMsg`; an unnamed API code maps to a message strictly longer than the fixed prefix it starts with |
| Login.StartSilent | google-iab/src/main/java/games/moisoni/google_ad/services/LoginService.java:106-119 | silent sign-in on a not-ready service shows the initialisation error and calls nothing; without a usable Activity it does nothing; otherwise it makes one `isAuthenticated()` call, whatever `signingIn` is |
| Login.StartManual | google-iab/src/main/java/games/moisoni/google_ad/services/LoginService.java:146-165 | manual sign-in on a not-ready service shows the initialisation error; without an Activity or while `signingIn` is set it is ignored; otherwise it sets `signingIn` and calls `signIn()` once |
| Login.RequestAuthCode | google-iab/src/main/java/games/moisoni/google_ad/services/LoginService.java:196-207 | the auth-code request is ignored without an Activity or while `signingIn` is set; otherwise it sets `signingIn` and requests server access for the stored client id |
| Login.SilentCompletion | google-iab/src/main/java/games/moisoni/google_ad/services/LoginService.java:120-131 | an authenticated silent result leads to the auth-code request and any other result to manual sign-in |
| Login.ManualCompletion | google-iab/src/main/java/games/moisoni/google_ad/services/LoginService.java:166-180 | a manual result clears `signingIn` first; an unauthenticated one is reported as failed, an authenticated one leads to the auth-code request |
| Login.AuthCodeCompletion | google-iab/src/main/java/games/moisoni/google_ad/services/LoginService.java:208-226 | an auth-code result clears `signingIn`; a successful one goes unchanged to `onLoginSuccess`, an unsuccessful one is shown and reported with a fixed message |
| Login.AuthCodeFailure | google-iab/src/main/java/games/moisoni/google_ad/services/LoginService.java:227-237 | an auth-code failure clears `signingIn` and shows and reports the mapped message |
| Login.ManualFailure | google-iab/src/main/java/games/moisoni/google_ad/services/LoginService.java:181-189 | a manual sign-in failure clears `signingIn` and shows and reports the mapped message |
| Login.SilentFailure | google-iab/src/main/java/games/moisoni/google_ad/services/LoginService.java:132-139 | a silent check failure shows and reports the mapped message and leaves `signingIn` alone |
| Login.Init | google-iab/src/main/java/games/moisoni/google_ad/services/LoginService.java:88-101 | `init` fails exactly on a blank client id, before anything is set; otherwise the service is ready afterwards |
| Login.SignOutStep | google-iab/src/main/java/games/moisoni/google_ad/services/LoginService.java:51-56 | `signOut` changes no state and sends `onLogout` only when a listener is set |
| LoginProofs.NewLoginStateInv | google-iab/src/main/java/games/moisoni/google_ad/services/LoginService.java:36-40 | a fresh service is not ready and satisfies the invariant: tasks are outstanding only once ready, and `signingIn` only while a sign-in or auth-code listener is still due |
| LoginProofs.InitPreservesLoginInv | google-iab/src/main/java/games/moisoni/google_ad/services/LoginService.java:88-101 | `init` keeps the invariant |
| LoginProofs.LoginTransitionPreservesInv | google-iab/src/main/java/games/moisoni/google_ad/services/LoginService.java:106-237 | every event keeps the invariant |
| LoginProofs.LoginRunPreservesInv | google-iab/src/main/java/games/moisoni/google_ad/services/LoginService.java:106-237 | every sequence of events keeps the invariant |
| LoginProofs.LoginApplyPreservesInv | google-iab/src/main/java/games/moisoni/google_ad/services/LoginService.java:88-237 | every sequence of `init` calls and events, in any interleaving, keeps the invariant; a rejected `init` changes nothing |
| LoginProofs.LoginReachableInv | google-iab/src/main/java/games/moisoni/google_ad/services/LoginService.java:88-237 | every state reached from a fresh service by `init` calls and events in any interleaving satisfies the invariant |
| LoginProofs.ReadinessIsStable | google-iab/src/main/java/games/moisoni/google_ad/services/LoginService.java:332-334 | once ready, no event makes the service not ready again |
| LoginProofs.NotReadyMakesNoSdkCall | google-iab/src/main/java/games/moisoni/google_ad/services/LoginService.java:109-113 | while the service is not ready no event leads to any SDK call, and silent sign-in shows the initialisation error when an Activity can show it |
| LoginProofs.AuthCodeRequestNamesClientId | google-iab/src/main/java/games/moisoni/google_ad/services/LoginService.java:206-207 | every auth-code request names the non-blank client id given to `init`, though `requestAuthCode` does not check readiness itself |
| LoginProofs.OnlyAuthenticatedCompletionsRequestAuthCode | google-iab/src/main/java/games/moisoni/google_ad/services/LoginService.java:120-131 | only an authenticated silent or manual result asks for an auth code, exactly once, and the step leaves `signingIn` set |
| LoginProofs.OnlyUnauthenticatedSilentCompletionStartsManual | google-iab/src/main/java/games/moisoni/google_ad/services/LoginService.java:122-126 | only an unauthenticated silent result with `signingIn` clear starts a manual sign-in, and the step sets the flag |
| LoginProofs.GuardBlocksSecondStart | google-iab/src/main/java/games/moisoni/google_ad/services/LoginService.java:159-162 | while `signingIn` is set no step calls `signIn()`, and only an authenticated manual result, which clears the flag first, requests an auth code |
| LoginProofs.StartsSetGuard | google-iab/src/main/java/games/moisoni/google_ad/services/LoginService.java:201-204 | every step that starts a manual sign-in or auth-code request leaves `signingIn` set |
| LoginProofs.TerminalBranchesClearGuard | google-iab/src/main/java/games/moisoni/google_ad/services/LoginService.java:172-235 | after any manual-sign-in or auth-code listener call, `signingIn` is set exactly when that step started a new auth-code request |
| LoginProofs.FallThroughStep | google-iab/src/main/java/games/moisoni/google_ad/services/LoginService.java:122-126 | an unauthenticated silent result on a ready service with `signingIn` clear calls `signIn()` once and sets the flag |
| LoginProofs.SilentPathDeliversAuthCode | google-iab/src/main/java/games/moisoni/google_ad/services/LoginService.java:118-131 | silent check, authenticated, auth code: the outputs are `isAuthenticated()`, the server-access request for the client id and `onLoginSuccess` with the code unchanged |
| LoginProofs.ManualPathDeliversAuthCode | google-iab/src/main/java/games/moisoni/google_ad/services/LoginService.java:118-222 | silent check not authenticated, manual sign-in authenticated, auth code: the outputs are the two sign-in calls, the request and `onLoginSuccess` with the code |
| LoginProofs.FailedAuthCodeReportedTwice | google-iab/src/main/java/games/moisoni/google_ad/services/LoginService.java:208-237 | when both listeners of a failed auth-code task fire, the failure is shown and reported twice |
| LoginProofs.LateListenerReleasesGuard | google-iab/src/main/java/games/moisoni/google_ad/services/LoginService.java:223-235 | the late listener of a finished auth-code task clears `signingIn` while a newer manual sign-in is in flight, so a second `signIn()` call can follow |
| LoginProofs.OtherCodeMessageRecoversCode | google-iab/src/main/java/games/moisoni/google_ad/services/LoginService.java:274 | the message for an unnamed code is the fixed prefix followed by text that reads back as the code |
| LoginProofs.ApiMessagesDistinct | google-iab/src/main/java/games/moisoni/google_ad/services/LoginService.java:269-275 | no two status codes share a message |
| Login.StatusOf | google-iab/src/main/java/games/moisoni/google_ad/services/LoginService.java:268-275 | the `switch` on the `int` status code: each of the four named values picks its own case, and every other value falls to `default` with the code kept |
| LoginProofs.StatusCodeMessagesDistinct | google-iab/src/main/java/games/moisoni/google_ad/services/LoginService.java:266-275 | two different `int` status codes never give the same message |

## Left out

- Threads, `AtomicBoolean` races and the background thread of `retryLoadAd`: each callback and posted runnable is one atomic step.
- The 5000 ms `Thread.sleep` before a retry: a due retry is an input event (`RetryDue`); `RETRY_DELAY_MS` records the constant.
- The Activity check and the posted slot check in `loadRewardedAdForSlot` run at different times in the code. The model makes them one step.
- `RewardedAds.FailLoad`: every failure adds one pending retry for its slot, so several retries of one slot can be pending at once, as in the code.
- Ad loading and display inside the Google Mobile Ads SDK, `MobileAds.initialize` and the request configuration with test device ids: they are outside the code. Only their callbacks are modelled, as events.
- The `onAdShowedFullScreenContent`, `onAdImpression` and `onAdClicked` callbacks: they only log.
- The `show` call's inner runnable setting the content callback: it is part of the one show step.
- The singleton holder, the constructor guard, `readResolve` and serialization.
- `WeakReference<Activity>`: modelled only as an "Activity present" flag, plus `isFinishing` for the sign-in service.
- `setTestDeviceHashedIds`: it only feeds the request configuration.
- `LoginService.onCreate`, `onStop`: they only log. `onResume` is `signInSilently`, which the `SignInSilently` event already covers.
- `requireEnvOrWarn`: modelled as the Activity check. The toast it asks for is never shown, because `showSignInError` makes the same check. The client is re-fetched when missing, which is SDK plumbing.
- `PlayGamesSdk.initialize` and `getGamesSignInClient` in `LoginService.init`.
- Status code values: the four named `CommonStatusCodes` are taken as 16, 4, 7 and 15. Their definitions are in the Play services SDK, outside the code. `OtherCode(n)` holds any other `int`, and its message uses the decimal text of `n`.
- Auth-code results are modelled as non-null strings.
- `Login.ResolveSignInError`: the four fixed messages are stated as constants, not repeated in its contract. `LoginProofs.ApiMessagesDistinct` states that they differ.
- `RewardedAds.EarnReward`: every reward callback is taken to belong to the running display, if one runs. In the code, each `show` has its own reward flag. A late reward callback from an earlier display, arriving while a later one runs, would send `true` but leave the later display's flag alone. The model marks the later display rewarded instead.
- `RewardedAds.Dismiss` and `RewardedAds.FailToShow`: with no display running they do nothing. Each display's callbacks have no such guard in the code. A repeated or late dismissal or show failure would clear `isShowing` again, notify the listener and reload. The SDK is taken to call each of them at most once per display, while it runs.
- Both `BillingService` classes and `BannerAdService`: no logic of the modelled core.
- Listener interfaces: they appear only as the output alphabet.
- The toast and log text other than the messages the listener receives.

## Findings

| source | as written | input that shows it | evidently intended | confidence | as-written member | corrected member |
|---|---|---|---|---|---|---|
| google-iab/src/main/java/games/moisoni/google_iab/service/RewardedVideoService.java:232 (and RewardedInterstitialService.java:211) | `currentSlot.get() % 2` truncates, so once the `int` counter wraps past `Integer.MAX_VALUE` every odd counter gives -1, which matches neither slot; the counter then never advances again and A is always shown first | both slots filled, `currentSlot` = 2147483647: three selections return B, A, A and the counter stays at -2147483647 from then on | the parity of the counter, e.g. `Math.floorMod(currentSlot.get(), 2)`, so the slots keep alternating after the wrap | not executed | RewardedAds.SelectAsWritten, RewardedAdsProofs.AsWrittenRotationStalls, RewardedAdsProofs.AsWrittenStallAfterWrap, RewardedAdsProofs.ShowAtStalledCounter | RewardedAds.Select, RewardedAdsProofs.RotationAlternates, RewardedAdsProofs.ShowAtStalledCounter |

A controller built with `JavaRemainder` shows ads as the code does, through
`RewardedAds.SelectAsWritten`. One built with `FloorMod` uses the corrected
`RewardedAds.Select`. `RewardedAdsProofs.SelectMatchesSourceOnNonNegative`
shows the two rules agree for every counter value the code reaches before the
wrap.


=== FILE: java_lang.dfy ===
/** The few `java.lang` behaviours the services depend on, written out exactly:
    `String.trim()`, 32-bit `int` increment, the truncating `%` operator and
    `Integer.toString`. */
module JavaLang {

  // ---------------------------------------------------------------------------
  // String.trim(): strips every leading and trailing char whose code is <= U+0020
  // ---------------------------------------------------------------------------

  predicate IsTrimmable(c: char) {
    c <= ' '
  }

  /** The first index at or after `i` whose char is not trimmable, or `|s|`. */
  function SkipTrimmable(s: string, i: nat): (k: nat)
    requires i <= |s|
    ensures i <= k <= |s|
    ensures forall j :: i <= j < k ==> IsTrimmable(s[j])
    ensures k < |s| ==> !IsTrimmable(s[k])
    decreases |s| - i
  {
    if i < |s| && IsTrimmable(s[i]) then SkipTrimmable(s, i + 1) else i
  }

  /** The end of `s[lo..hi]` once its trailing trimmable chars are dropped. */
  function TrailingStart(s: string, lo: nat, hi: nat): (e: nat)
    requires lo <= hi <= |s|
    ensures lo <= e <= hi
    ensures forall j :: e <= j < hi ==> IsTrimmable(s[j])
    ensures e > lo ==> !IsTrimmable(s[e - 1])
    decreases hi - lo
  {
    if hi > lo && IsTrimmable(s[hi - 1]) then TrailingStart(s, lo, hi - 1) else hi
  }

  /** Number of leading trimmable chars of `s`. */
  function LeadingTrimmable(s: string): (k: nat)
    ensures k <= |s|
    ensures forall j :: 0 <= j < k ==> IsTrimmable(s[j])
    ensures k < |s| ==> !IsTrimmable(s[k])
  {
    SkipTrimmable(s, 0)
  }

  /** `s.trim()`: the piece of `s` after its leading trimmable chars, neither
      starting nor ending with a trimmable char, with only trimmable chars
      after it. */
  function Trim(s: string): (r: string)
    ensures LeadingTrimmable(s) + |r| <= |s|
    ensures r == s[LeadingTrimmable(s)..LeadingTrimmable(s) + |r|]
    ensures |r| > 0 ==> !IsTrimmable(r[0]) && !IsTrimmable(r[|r| - 1])
    ensures forall i :: LeadingTrimmable(s) + |r| <= i < |s| ==> IsTrimmable(s[i])
  {
    var k := LeadingTrimmable(s);
    var e := TrailingStart(s, k, |s|);
    s[k..e]
  }

  /** A string made of trimmable chars only; `IsBlankMeansTrimsToEmpty`
      shows this is `s.trim().isEmpty()`. */
  predicate IsBlank(s: string) {
    forall i :: 0 <= i < |s| ==> IsTrimmable(s[i])
  }

  /** A string is blank exactly when trimming it leaves nothing. */
  lemma {:induction false} IsBlankMeansTrimsToEmpty(s: string)
    ensures IsBlank(s) <==> |Trim(s)| == 0
  {
    var k := LeadingTrimmable(s);
    var r := Trim(s);
    if |r| == 0 {
      assert forall i :: 0 <= i < |s| ==> IsTrimmable(s[i]);
    } else {
      assert s[k] == r[0];
    }
  }

  // ---------------------------------------------------------------------------
  // Java `int`: 32-bit two's complement
  // ---------------------------------------------------------------------------

  const TWO_TO_32: int := 0x1_0000_0000
  const INT_MIN: int := -0x8000_0000
  const INT_MAX: int := 0x7fff_ffff

  /** A Java `int` value. */
  type Int32 = x: int | INT_MIN <= x <= INT_MAX

  /** `AtomicInteger.incrementAndGet()`: x + 1 reduced into the 32-bit range. */
  function Increment32(x: Int32): (r: Int32)
    ensures (r - (x + 1)) % TWO_TO_32 == 0
  {
    if x == INT_MAX then INT_MIN else x + 1
  }

  /** Advancing a Java int flips its parity, across the wrap too, because
      2^32 is even. */
  lemma IncrementFlipsParity(x: Int32)
    ensures Increment32(x) % 2 != x % 2
  {
  }

  /** Java's `a / b` for b > 0: rounds toward zero. */
  function TruncDiv(a: int, b: int): int
    requires b > 0
  {
    if a >= 0 then a / b else -((-a) / b)
  }

  /** Java's `a % b` for b > 0: the remainder takes the sign of the dividend,
      unlike Dafny's Euclidean `%` (which is Java's `Math.floorMod` here). */
  function TruncRem(a: int, b: int): (r: int)
    requires b > 0
    ensures a == TruncDiv(a, b) * b + r
    ensures a >= 0 ==> 0 <= r < b
    ensures a < 0 ==> -b < r <= 0
  {
    if a >= 0 then a % b else -((-a) % b)
  }

  // ---------------------------------------------------------------------------
  // Integer.toString(int): optional '-' then decimal digits, no leading zeros
  // ---------------------------------------------------------------------------

  predicate IsDigit(c: char) {
    '0' <= c <= '9'
  }

  function DigitChar(d: nat): (c: char)
    requires d < 10
    ensures IsDigit(c)
  {
    (d + '0' as int) as char
  }

  function DigitValue(c: char): (d: nat)
    requires IsDigit(c)
    ensures d < 10 && DigitChar(d) == c
  {
    c as int - '0' as int
  }

  /** The decimal numeral of `n`, most significant digit first. */
  function NatToString(n: nat): (s: string)
    ensures |s| > 0
    ensures forall i :: 0 <= i < |s| ==> IsDigit(s[i])
    ensures |s| > 1 ==> s[0] != '0'
    decreases n
  {
    if n < 10 then [DigitChar(n)] else NatToString(n / 10) + [DigitChar(n % 10)]
  }

  /** The value of a string of decimal digits. */
  function NatFromString(s: string): nat
    requires forall i :: 0 <= i < |s| ==> IsDigit(s[i])
    decreases |s|
  {
    if |s| == 0 then 0
    else NatFromString(s[..|s| - 1]) * 10 + DigitValue(s[|s| - 1])
  }

  lemma {:induction false} NatRoundTrip(n: nat)
    ensures NatFromString(NatToString(n)) == n
    decreases n
  {
    if n >= 10 {
      var s := NatToString(n);
      assert s[..|s| - 1] == NatToString(n / 10);
      NatRoundTrip(n / 10);
    }
  }

  /** `Integer.toString(n)`. */
  function IntToString(n: int): (s: string)
    ensures |s| > 0
    ensures s[0] == '-' <==> n < 0
  {
    if n < 0 then "-" + NatToString(-n) else NatToString(n)
  }

  /** `Integer.parseInt` restricted to the strings `IntToString` produces. */
  function IntFromString(s: string): int
  {
    if |s| > 0 && s[0] == '-' && forall i :: 1 <= i < |s| ==> IsDigit(s[i]) then
      0 - NatFromString(s[1..])
    else if forall i :: 0 <= i < |s| ==> IsDigit(s[i]) then
      NatFromString(s)
    else
      0
  }

  lemma IntRoundTrip(n: int)
    ensures IntFromString(IntToString(n)) == n
  {
    if n < 0 {
      var s := IntToString(n);
      assert s[1..] == NatToString(-n);
      NatRoundTrip(-n);
    } else {
      NatRoundTrip(n);
    }
  }

  /** Distinct ints print differently. */
  lemma IntToStringInjective(m: int, n: int)
    ensures IntToString(m) == IntToString(n) ==> m == n
  {
    IntRoundTrip(m);
    IntRoundTrip(n);
  }
}

=== FILE: login.dfy ===
/** `LoginService`: the Play Games sign-in sequence. A silent authentication
    check falls through to a manual sign-in when it does not report an
    authenticated player, and either path ends in a server auth-code request.
    A single `signingIn` flag keeps the manual sign-in and the auth-code request
    from being started twice. Every SDK task result is an input event; what the
    service asks of the SDK, shows the user and tells its listener is returned
    as a trace of `LoginOutput`s. */
module Login {
  import opened Wrappers
  import opened JavaLang

  /** The values of the four `CommonStatusCodes` the error mapping names:
      `CANCELED`, `SIGN_IN_REQUIRED`, `NETWORK_ERROR` and `TIMEOUT`. */
  const CANCELED_CODE: int := 16
  const SIGN_IN_REQUIRED_CODE: int := 4
  const NETWORK_ERROR_CODE: int := 7
  const TIMEOUT_CODE: int := 15

  /** A Java `int` status code other than the four named ones. */
  type UnnamedStatusCode = c: Int32
    | c != CANCELED_CODE && c != SIGN_IN_REQUIRED_CODE && c != NETWORK_ERROR_CODE && c != TIMEOUT_CODE
    witness 0

  /** `ApiException.getStatusCode()`: the four named codes, kept symbolic, and
      every other code. */
  datatype StatusCode = Canceled | SignInRequired | NetworkError | Timeout | OtherCode(code: UnnamedStatusCode)

  /** The `switch (code)` of `resolveSignInError`: each of the four named
      values picks its own case, and every other value falls to `default`
      with the code kept. */
  function StatusOf(code: Int32): (c: StatusCode)
    ensures c == Canceled <==> code == CANCELED_CODE
    ensures c == SignInRequired <==> code == SIGN_IN_REQUIRED_CODE
    ensures c == NetworkError <==> code == NETWORK_ERROR_CODE
    ensures c == Timeout <==> code == TIMEOUT_CODE
    ensures c.OtherCode? ==> c.code == code
  {
    if code == CANCELED_CODE then Canceled
    else if code == SIGN_IN_REQUIRED_CODE then SignInRequired
    else if code == NETWORK_ERROR_CODE then NetworkError
    else if code == TIMEOUT_CODE then Timeout
    else OtherCode(code)
  }

  /** The exception a failed task carries. */
  datatype SignInError =
    | ApiError(status: StatusCode)
    | OtherError(message: Option<string>)   // any other exception and its getMessage()

  /** Listener calls still due for the tasks of one kind issued so far. The
      Task API's completion and failure listeners are independent deliveries:
      each issued task adds one of each, and each delivery consumes one. */
  datatype Pending = Pending(completions: nat, failures: nat)

  datatype LoginState = LoginState(
    clientId: Option<string>,   // oauthClientId
    listenerSet: bool,          // loginEventListener != null
    activityUsable: bool,       // the Activity is there and not finishing
    signingIn: bool,
    silent: Pending,            // isAuthenticated() tasks
    manual: Pending,            // signIn() tasks
    authCode: Pending)          // requestServerSideAccess() tasks

  datatype LoginOutput =
    | IsAuthenticatedCalled                          // GamesSignInClient.isAuthenticated()
    | SignInCalled                                   // GamesSignInClient.signIn()
    | ServerAccessRequested(clientId: Option<string>) // requestServerSideAccess(clientId, false)
    | ErrorShown(message: string)                    // the error toast
    | LoginSucceeded(authCode: string)               // listener.onLoginSuccess
    | LoginFailed(message: string)                   // listener.onLoginFailed
    | LoggedOut                                      // listener.onLogout

  datatype LoginStep = LoginStep(state: LoginState, out: seq<LoginOutput>)

  datatype LoginEvent =
    | SignInSilently                            // signInSilently(), also run by onResume()
    | SignOut
    | SetListener                               // setLoginEventListener(non-null)
    | ActivityGone
    | SilentCompleted(authenticated: bool)      // isSuccessful() && isAuthenticated()
    | SilentFailed(error: SignInError)
    | ManualCompleted(authenticated: bool)
    | ManualFailed(error: SignInError)
    | AuthCodeCompleted(result: Option<string>) // None: the task was not successful
    | AuthCodeFailed(error: SignInError)

  datatype InitError = BlankClientId

  const MSG_CANCELED := "用户取消登录"
  const MSG_SIGN_IN_REQUIRED := "需要重新登录"
  const MSG_NETWORK_ERROR := "网络连接错误，请检查网络"
  const MSG_TIMEOUT := "登录超时，请重试"
  const MSG_CODE_PREFIX := "登录失败，错误码: "
  const MSG_UNKNOWN := "Unknown error"
  const MSG_NOT_INITIALIZED := "Login manager not properly initialized"
  const MSG_MANUAL_FAILED := "手动登录失败"
  const MSG_AUTH_CODE_FAILED := "Failed to get auth code"

  function NewLoginState(): LoginState {
    LoginState(None, false, false, false, Pending(0, 0), Pending(0, 0), Pending(0, 0))
  }

  // ---------------------------------------------------------------------------
  // Error messages
  // ---------------------------------------------------------------------------

  /** `safeMsg`: the exception's message, or "Unknown error" when it has none. */
  function SafeMsg(message: Option<string>): (r: string)
    ensures message.Some? ==> r == message.value
    ensures message.None? ==> r == MSG_UNKNOWN
  {
    message.GetOr(MSG_UNKNOWN)
  }

  /** `resolveSignInError`: a fixed message for each of the four named status
      codes, the fixed prefix followed by the decimal code for any other status
      code, and `safeMsg` for an exception that is not an `ApiException`. */
  function ResolveSignInError(e: SignInError): (r: string)
    ensures e.OtherError? ==> r == SafeMsg(e.message)
    ensures e.ApiError? && e.status.OtherCode? ==>
              |MSG_CODE_PREFIX| < |r| && r[..|MSG_CODE_PREFIX|] == MSG_CODE_PREFIX
  {
    match e
    case ApiError(status) =>
      (match status
       case Canceled => MSG_CANCELED
       case SignInRequired => MSG_SIGN_IN_REQUIRED
       case NetworkError => MSG_NETWORK_ERROR
       case Timeout => MSG_TIMEOUT
       case OtherCode(code) => MSG_CODE_PREFIX + IntToString(code))
    case OtherError(message) => SafeMsg(message)
  }

  // ---------------------------------------------------------------------------
  // Readiness and the helpers every path uses
  // ---------------------------------------------------------------------------

  /** `isInitialized()`, which despite its name holds when the service is NOT
      ready: no client id, a blank one, or no listener. */
  predicate NotReady(s: LoginState) {
    s.clientId.None? || IsBlank(s.clientId.value) || !s.listenerSet
  }

  /** `showSignInError`: a toast, only when the Activity is usable. */
  function ShowSignInError(s: LoginState, message: string): (out: seq<LoginOutput>)
    ensures s.activityUsable ==> out == [ErrorShown(message)]
    ensures !s.activityUsable ==> out == []
  {
    if s.activityUsable then [ErrorShown(message)] else []
  }

  /** `onDisconnected`: `onLoginFailed`, only when a listener is set. */
  function Disconnected(s: LoginState, message: string): (out: seq<LoginOutput>)
    ensures s.listenerSet ==> out == [LoginFailed(message)]
    ensures !s.listenerSet ==> out == []
  {
    if s.listenerSet then [LoginFailed(message)] else []
  }

  /** `onConnected`: `onLoginSuccess` with the auth code, only when a listener
      is set. */
  function Connected(s: LoginState, authCode: string): (out: seq<LoginOutput>)
    ensures s.listenerSet ==> out == [LoginSucceeded(authCode)]
    ensures !s.listenerSet ==> out == []
  {
    if s.listenerSet then [LoginSucceeded(authCode)] else []
  }

  /** A task was issued: one completion and one failure delivery are now due. */
  function Issue(p: Pending): (r: Pending)
    ensures r.completions == p.completions + 1 && r.failures == p.failures + 1
  {
    Pending(p.completions + 1, p.failures + 1)
  }

  predicate Due(p: Pending) {
    p.completions > 0 || p.failures > 0
  }

  // ---------------------------------------------------------------------------
  // The three SDK calls
  // ---------------------------------------------------------------------------

  /** `signInSilently`: when the service is not ready, an error toast instead
      of any SDK call; without a usable Activity, nothing; otherwise one
      `isAuthenticated()` call. The `signingIn` flag plays no part. */
  function StartSilent(s: LoginState): (t: LoginStep)
    ensures NotReady(s) ==> t == LoginStep(s, ShowSignInError(s, MSG_NOT_INITIALIZED))
    ensures !NotReady(s) && !s.activityUsable ==> t == LoginStep(s, [])
    ensures !NotReady(s) && s.activityUsable ==>
              t == LoginStep(s.(silent := Issue(s.silent)), [IsAuthenticatedCalled])
  {
    if NotReady(s) then LoginStep(s, ShowSignInError(s, MSG_NOT_INITIALIZED))
    else if !s.activityUsable then LoginStep(s, [])
    else LoginStep(s.(silent := Issue(s.silent)), [IsAuthenticatedCalled])
  }

  /** `signInManual`: the readiness and Activity checks of `signInSilently`,
      then the `signingIn` compare-and-set: while a sign-in or auth-code request
      is in progress the call is ignored; otherwise the flag is set and one
      `signIn()` call goes out. */
  function StartManual(s: LoginState): (t: LoginStep)
    ensures NotReady(s) ==> t == LoginStep(s, ShowSignInError(s, MSG_NOT_INITIALIZED))
    ensures !NotReady(s) && (!s.activityUsable || s.signingIn) ==> t == LoginStep(s, [])
    ensures !NotReady(s) && s.activityUsable && !s.signingIn ==>
              t == LoginStep(s.(signingIn := true, manual := Issue(s.manual)), [SignInCalled])
  {
    if NotReady(s) then LoginStep(s, ShowSignInError(s, MSG_NOT_INITIALIZED))
    else if !s.activityUsable then LoginStep(s, [])
    else if s.signingIn then LoginStep(s, [])
    else LoginStep(s.(signingIn := true, manual := Issue(s.manual)), [SignInCalled])
  }

  /** `requestAuthCode`: no readiness check; without a usable Activity, or
      while `signingIn` is set, nothing; otherwise the flag is set and one
      server-side-access request for the client id goes out. */
  function RequestAuthCode(s: LoginState): (t: LoginStep)
    ensures !s.activityUsable || s.signingIn ==> t == LoginStep(s, [])
    ensures s.activityUsable && !s.signingIn ==>
              t == LoginStep(s.(signingIn := true, authCode := Issue(s.authCode)),
                             [ServerAccessRequested(s.clientId)])
  {
    if !s.activityUsable then LoginStep(s, [])
    else if s.signingIn then LoginStep(s, [])
    else LoginStep(s.(signingIn := true, authCode := Issue(s.authCode)), [ServerAccessRequested(s.clientId)])
  }

  // ---------------------------------------------------------------------------
  // Task listeners
  // ---------------------------------------------------------------------------

  /** Completion of a silent check: an authenticated result leads to the
      auth-code request, anything else falls through to manual sign-in. */
  function SilentCompletion(s: LoginState, authenticated: bool): (t: LoginStep)
    ensures s.silent.completions == 0 ==> t == LoginStep(s, [])
    ensures s.silent.completions > 0 ==>
              var s1 := s.(silent := s.silent.(completions := s.silent.completions - 1));
              t == if authenticated then RequestAuthCode(s1) else StartManual(s1)
  {
    if s.silent.completions == 0 then LoginStep(s, [])
    else
      var s1 := s.(silent := s.silent.(completions := s.silent.completions - 1));
      if authenticated then RequestAuthCode(s1) else StartManual(s1)
  }

  /** Failure of a silent check: the mapped message as a toast and to
      `onLoginFailed`. */
  function SilentFailure(s: LoginState, error: SignInError): (t: LoginStep)
    ensures s.silent.failures == 0 ==> t == LoginStep(s, [])
    ensures s.silent.failures > 0 ==>
              var message := ResolveSignInError(error);
              && t.state == s.(silent := s.silent.(failures := s.silent.failures - 1))
              && t.out == ShowSignInError(s, message) + Disconnected(s, message)
  {
    if s.silent.failures == 0 then LoginStep(s, [])
    else
      var message := ResolveSignInError(error);
      LoginStep(s.(silent := s.silent.(failures := s.silent.failures - 1)),
                ShowSignInError(s, message) + Disconnected(s, message))
  }

  /** Completion of a manual sign-in: `signingIn` is cleared first; an
      unauthenticated result is reported to `onLoginFailed`, an authenticated
      one leads to the auth-code request. */
  function ManualCompletion(s: LoginState, authenticated: bool): (t: LoginStep)
    ensures s.manual.completions == 0 ==> t == LoginStep(s, [])
    ensures s.manual.completions > 0 ==>
              var s1 := s.(signingIn := false, manual := s.manual.(completions := s.manual.completions - 1));
              t == if authenticated then RequestAuthCode(s1) else LoginStep(s1, Disconnected(s, MSG_MANUAL_FAILED))
  {
    if s.manual.completions == 0 then LoginStep(s, [])
    else
      var s1 := s.(signingIn := false, manual := s.manual.(completions := s.manual.completions - 1));
      if authenticated then RequestAuthCode(s1) else LoginStep(s1, Disconnected(s, MSG_MANUAL_FAILED))
  }

  /** Failure of a manual sign-in: `signingIn` cleared, the mapped message as a
      toast and to `onLoginFailed`. */
  function ManualFailure(s: LoginState, error: SignInError): (t: LoginStep)
    ensures s.manual.failures == 0 ==> t == LoginStep(s, [])
    ensures s.manual.failures > 0 ==>
              var message := ResolveSignInError(error);
              && t.state == s.(signingIn := false, manual := s.manual.(failures := s.manual.failures - 1))
              && t.out == ShowSignInError(s, message) + Disconnected(s, message)
  {
    if s.manual.failures == 0 then LoginStep(s, [])
    else
      var message := ResolveSignInError(error);
      LoginStep(s.(signingIn := false, manual := s.manual.(failures := s.manual.failures - 1)),
                ShowSignInError(s, message) + Disconnected(s, message))
  }

  /** Completion of an auth-code request (`signingIn` cleared in `finally`): a
      successful result goes unchanged to `onLoginSuccess`; an unsuccessful one
      is shown and reported with a fixed message. */
  function AuthCodeCompletion(s: LoginState, result: Option<string>): (t: LoginStep)
    ensures s.authCode.completions == 0 ==> t == LoginStep(s, [])
    ensures s.authCode.completions > 0 ==>
              && t.state == s.(signingIn := false, authCode := s.authCode.(completions := s.authCode.completions - 1))
              && t.out == match result
                          case Some(code) => Connected(s, code)
                          case None => ShowSignInError(s, MSG_AUTH_CODE_FAILED) + Disconnected(s, MSG_AUTH_CODE_FAILED)
  {
    if s.authCode.completions == 0 then LoginStep(s, [])
    else
      var s1 := s.(signingIn := false, authCode := s.authCode.(completions := s.authCode.completions - 1));
      match result
      case None => LoginStep(s1, ShowSignInError(s, MSG_AUTH_CODE_FAILED) + Disconnected(s, MSG_AUTH_CODE_FAILED))
      case Some(code) => LoginStep(s1, Connected(s, code))
  }

  /** Failure of an auth-code request (`signingIn` cleared in `finally`): the
      mapped message as a toast and to `onLoginFailed`. */
  function AuthCodeFailure(s: LoginState, error: SignInError): (t: LoginStep)
    ensures s.authCode.failures == 0 ==> t == LoginStep(s, [])
    ensures s.authCode.failures > 0 ==>
              var message := ResolveSignInError(error);
              && t.state == s.(signingIn := false, authCode := s.authCode.(failures := s.authCode.failures - 1))
              && t.out == ShowSignInError(s, message) + Disconnected(s, message)
  {
    if s.authCode.failures == 0 then LoginStep(s, [])
    else
      var message := ResolveSignInError(error);
      LoginStep(s.(signingIn := false, authCode := s.authCode.(failures := s.authCode.failures - 1)),
                ShowSignInError(s, message) + Disconnected(s, message))
  }

  // ---------------------------------------------------------------------------
  // init, signOut and the event loop
  // ---------------------------------------------------------------------------

  /** `init(activity, oauthClientId, callback)`: a client id that is blank
      after trimming is rejected before the SDK is initialised or any field is
      set; otherwise the Activity, client id and listener are stored. */
  function Init(s: LoginState, clientId: string): (r: Result<LoginState, InitError>)
    ensures r.Failure? <==> IsBlank(clientId)
    ensures r.Success? ==> r.value == s.(activityUsable := true, clientId := Some(clientId), listenerSet := true)
    ensures r.Success? ==> !NotReady(r.value)
  {
    if IsBlank(clientId) then Failure(BlankClientId)
    else Success(s.(activityUsable := true, clientId := Some(clientId), listenerSet := true))
  }

  /** `signOut`: only `onLogout`, and only when a listener is set. */
  function SignOutStep(s: LoginState): (t: LoginStep)
    ensures t.state == s
    ensures t.out == (if s.listenerSet then [LoggedOut] else [])
  {
    LoginStep(s, if s.listenerSet then [LoggedOut] else [])
  }

  function LoginTransition(s: LoginState, e: LoginEvent): LoginStep {
    match e
    case SignInSilently => StartSilent(s)
    case SignOut => SignOutStep(s)
    case SetListener => LoginStep(s.(listenerSet := true), [])
    case ActivityGone => LoginStep(s.(activityUsable := false), [])
    case SilentCompleted(authenticated) => SilentCompletion(s, authenticated)
    case SilentFailed(error) => SilentFailure(s, error)
    case ManualCompleted(authenticated) => ManualCompletion(s, authenticated)
    case ManualFailed(error) => ManualFailure(s, error)
    case AuthCodeCompleted(result) => AuthCodeCompletion(s, result)
    case AuthCodeFailed(error) => AuthCodeFailure(s, error)
  }

  function LoginRun(s: LoginState, events: seq<LoginEvent>): LoginStep
    decreases |events|
  {
    if |events| == 0 then LoginStep(s, [])
    else
      var first := LoginTransition(s, events[0]);
      var rest := LoginRun(first.state, events[1..]);
      LoginStep(rest.state, first.out + rest.out)
  }

  /** What the host application and the Play Games SDK do to the service, in
      any interleaving: `init` calls and events. */
  datatype LoginCall = LoginInitCall(clientId: string) | LoginEventCall(e: LoginEvent)

  /** One call. A rejected `init` throws before assigning anything, so the
      service stays as it was. */
  function ApplyLoginCall(s: LoginState, call: LoginCall): LoginState {
    match call
    case LoginInitCall(clientId) =>
      var r := Init(s, clientId);
      if r.Success? then r.value else s
    case LoginEventCall(e) => LoginTransition(s, e).state
  }

  /** The service after a sequence of calls. */
  function LoginApply(s: LoginState, calls: seq<LoginCall>): LoginState
    decreases |calls|
  {
    if |calls| == 0 then s else LoginApply(ApplyLoginCall(s, calls[0]), calls[1..])
  }
}

=== FILE: login_proofs.dfy ===
/** Properties of the sign-in sequence: the invariant of reachable states, the
    `signingIn` guard, the terminal branches, the readiness check, the
    end-to-end paths to an auth code, and the error-message mapping. */
module LoginProofs {
  import opened Wrappers
  import opened JavaLang
  import opened Login

  predicate IsSdkCall(o: LoginOutput) {
    o.IsAuthenticatedCalled? || o.SignInCalled? || o.ServerAccessRequested?
  }

  predicate NoSdkCall(out: seq<LoginOutput>) {
    forall i :: 0 <= i < |out| ==> !IsSdkCall(out[i])
  }

  predicate RequestsAuthCode(out: seq<LoginOutput>) {
    exists i :: 0 <= i < |out| && out[i].ServerAccessRequested?
  }

  // ---------------------------------------------------------------------------
  // The invariant
  // ---------------------------------------------------------------------------

  /** What holds in every reachable state: a task is outstanding only once the
      service is ready (so every auth-code request names a non-blank client id),
      and `signingIn` is set only while a sign-in or auth-code task still has a
      listener call due, so the flag cannot stay set with nothing to clear it. */
  predicate LoginInv(s: LoginState) {
    && (Due(s.silent) || Due(s.manual) || Due(s.authCode) ==> !NotReady(s))
    && (s.signingIn ==> Due(s.manual) || Due(s.authCode))
  }

  lemma NewLoginStateInv()
    ensures LoginInv(NewLoginState()) && NotReady(NewLoginState())
  {
  }

  lemma InitPreservesLoginInv(s: LoginState, clientId: string)
    requires LoginInv(s)
    ensures Init(s, clientId).Success? ==> LoginInv(Init(s, clientId).value)
  {
  }

  /** A state with the same client id and a listener is as ready as `s`. */
  lemma ReadinessCarries(s: LoginState, t: LoginState)
    requires !NotReady(s) && t.clientId == s.clientId && t.listenerSet
    ensures !NotReady(t)
  {
  }

  lemma SilentCompletionPreservesInv(s: LoginState, authenticated: bool)
    requires LoginInv(s)
    ensures LoginInv(SilentCompletion(s, authenticated).state)
  {
    if s.silent.completions > 0 {
      ReadinessCarries(s, SilentCompletion(s, authenticated).state);
    }
  }

  lemma ManualCompletionPreservesInv(s: LoginState, authenticated: bool)
    requires LoginInv(s)
    ensures LoginInv(ManualCompletion(s, authenticated).state)
  {
    if s.manual.completions > 0 {
      ReadinessCarries(s, ManualCompletion(s, authenticated).state);
    }
  }

  lemma FailuresPreserveInv(s: LoginState, error: SignInError)
    requires LoginInv(s)
    ensures LoginInv(SilentFailure(s, error).state)
    ensures LoginInv(ManualFailure(s, error).state)
    ensures LoginInv(AuthCodeFailure(s, error).state)
  {
    if Due(s.silent) || Due(s.manual) || Due(s.authCode) {
      ReadinessCarries(s, SilentFailure(s, error).state);
      ReadinessCarries(s, ManualFailure(s, error).state);
      ReadinessCarries(s, AuthCodeFailure(s, error).state);
    }
  }

  lemma LoginTransitionPreservesInv(s: LoginState, e: LoginEvent)
    requires LoginInv(s)
    ensures LoginInv(LoginTransition(s, e).state)
  {
    match e {
      case SilentCompleted(authenticated) => SilentCompletionPreservesInv(s, authenticated);
      case ManualCompleted(authenticated) => ManualCompletionPreservesInv(s, authenticated);
      case SilentFailed(error) => FailuresPreserveInv(s, error);
      case ManualFailed(error) => FailuresPreserveInv(s, error);
      case AuthCodeFailed(error) => FailuresPreserveInv(s, error);
      case AuthCodeCompleted(result) =>
        if Due(s.silent) || Due(s.manual) || Due(s.authCode) {
          ReadinessCarries(s, AuthCodeCompletion(s, result).state);
        }
      case _ =>
    }
  }

  lemma {:induction false} LoginRunPreservesInv(s: LoginState, events: seq<LoginEvent>)
    requires LoginInv(s)
    ensures LoginInv(LoginRun(s, events).state)
    decreases |events|
  {
    if |events| > 0 {
      LoginTransitionPreservesInv(s, events[0]);
      LoginRunPreservesInv(LoginTransition(s, events[0]).state, events[1..]);
    }
  }

  lemma {:induction false} LoginApplyPreservesInv(s: LoginState, calls: seq<LoginCall>)
    requires LoginInv(s)
    ensures LoginInv(LoginApply(s, calls))
    decreases |calls|
  {
    if |calls| > 0 {
      match calls[0] {
        case LoginInitCall(clientId) => InitPreservesLoginInv(s, clientId);
        case LoginEventCall(e) => LoginTransitionPreservesInv(s, e);
      }
      LoginApplyPreservesInv(ApplyLoginCall(s, calls[0]), calls[1..]);
    }
  }

  /** Every state reachable from a fresh service, through `init` calls and
      events in any interleaving, keeps the invariant. */
  lemma LoginReachableInv(calls: seq<LoginCall>)
    ensures LoginInv(LoginApply(NewLoginState(), calls))
  {
    NewLoginStateInv();
    LoginApplyPreservesInv(NewLoginState(), calls);
  }

  /** Once ready, the service stays ready: no event makes `isInitialized()`
      true again. */
  lemma ReadinessIsStable(s: LoginState, e: LoginEvent)
    requires !NotReady(s)
    ensures !NotReady(LoginTransition(s, e).state)
  {
    var t := LoginTransition(s, e).state;
    assert t.clientId == s.clientId && t.listenerSet;
    ReadinessCarries(s, t);
  }

  // ---------------------------------------------------------------------------
  // Readiness
  // ---------------------------------------------------------------------------

  /** While the service is not ready, no event leads to any SDK call: silent
      sign-in shows the "not properly initialized" error instead (when the
      Activity can show it), and no task can be outstanding to complete. */
  lemma NotReadyMakesNoSdkCall(s: LoginState, e: LoginEvent)
    requires LoginInv(s) && NotReady(s)
    ensures NoSdkCall(LoginTransition(s, e).out)
    ensures e == SignInSilently && s.activityUsable ==>
              LoginTransition(s, e) == LoginStep(s, [ErrorShown(MSG_NOT_INITIALIZED)])
  {
  }

  /** Only a due completion of a silent check or of a manual sign-in that
      reports an authenticated player asks for an auth code, and then it asks
      exactly once, for the stored client id. */
  lemma OnlyAuthenticatedCompletionsRequestAuthCode(s: LoginState, e: LoginEvent)
    ensures var t := LoginTransition(s, e);
            RequestsAuthCode(t.out) ==>
              && ((e == SilentCompleted(true) && s.silent.completions > 0)
                  || (e == ManualCompleted(true) && s.manual.completions > 0))
              && t.out == [ServerAccessRequested(s.clientId)]
              && t.state.signingIn
              && (e.SilentCompleted? ==> !s.signingIn)
  {
    var t := LoginTransition(s, e);
    match e {
      case SilentCompleted(_) =>
      case ManualCompleted(_) =>
      case _ =>
        assert !RequestsAuthCode(t.out);
    }
  }

  /** Every auth-code request names the non-blank client id given to `init`. */
  lemma AuthCodeRequestNamesClientId(s: LoginState, e: LoginEvent)
    requires LoginInv(s)
    ensures var out := LoginTransition(s, e).out;
            forall i :: 0 <= i < |out| && out[i].ServerAccessRequested? ==>
              out[i].clientId == s.clientId && s.clientId.Some? && !IsBlank(s.clientId.value)
  {
    OnlyAuthenticatedCompletionsRequestAuthCode(s, e);
  }

  // ---------------------------------------------------------------------------
  // The signingIn guard
  // ---------------------------------------------------------------------------

  /** Only a due completion of a silent check that does not report an
      authenticated player starts a manual sign-in, and only while `signingIn`
      is clear; the step sets it. */
  lemma OnlyUnauthenticatedSilentCompletionStartsManual(s: LoginState, e: LoginEvent)
    ensures var t := LoginTransition(s, e);
            SignInCalled in t.out ==>
              && e == SilentCompleted(false) && s.silent.completions > 0
              && !s.signingIn && t.state.signingIn
              && t.out == [SignInCalled]
  {
    var t := LoginTransition(s, e);
    match e {
      case SilentCompleted(_) =>
      case _ =>
        assert SignInCalled !in t.out;
    }
  }

  /** While `signingIn` is set, no step starts a manual sign-in, and the only
      step that starts an auth-code request is the authenticated completion of
      a manual sign-in, which clears the flag first. */
  lemma GuardBlocksSecondStart(s: LoginState, e: LoginEvent)
    requires s.signingIn
    ensures var t := LoginTransition(s, e);
            && SignInCalled !in t.out
            && (RequestsAuthCode(t.out) ==> e == ManualCompleted(true) && s.manual.completions > 0)
  {
    OnlyUnauthenticatedSilentCompletionStartsManual(s, e);
    OnlyAuthenticatedCompletionsRequestAuthCode(s, e);
  }

  /** Every manual sign-in or auth-code request a step starts leaves
      `signingIn` set. */
  lemma StartsSetGuard(s: LoginState, e: LoginEvent)
    ensures var t := LoginTransition(s, e);
            (SignInCalled in t.out || RequestsAuthCode(t.out)) ==> t.state.signingIn
  {
    OnlyUnauthenticatedSilentCompletionStartsManual(s, e);
    OnlyAuthenticatedCompletionsRequestAuthCode(s, e);
  }

  /** The terminal branches of manual sign-in and of the auth-code request
      (completion either way, failure) clear `signingIn`; it ends up set only
      when the step went on to a new auth-code request. */
  lemma TerminalBranchesClearGuard(s: LoginState, e: LoginEvent)
    requires e.ManualCompleted? || e.ManualFailed? || e.AuthCodeCompleted? || e.AuthCodeFailed?
    requires e.ManualCompleted? ==> s.manual.completions > 0
    requires e.ManualFailed? ==> s.manual.failures > 0
    requires e.AuthCodeCompleted? ==> s.authCode.completions > 0
    requires e.AuthCodeFailed? ==> s.authCode.failures > 0
    ensures var t := LoginTransition(s, e);
            t.state.signingIn <==> RequestsAuthCode(t.out)
  {
    var t := LoginTransition(s, e);
    if t.state.signingIn {
      assert t.out[0].ServerAccessRequested?;
    }
  }

  // ---------------------------------------------------------------------------
  // End-to-end sign-in paths
  // ---------------------------------------------------------------------------

  /** The ready state `init` leaves behind on a fresh service. */
  function Ready(clientId: string): LoginState
    requires !IsBlank(clientId)
  {
    Init(NewLoginState(), clientId).value
  }

  /** Silent path: an authenticated silent check leads straight to the
      auth-code request, whose successful result reaches `onLoginSuccess`
      unchanged; the guard is clear at the end. */
  lemma SilentPathDeliversAuthCode(clientId: string, code: string)
    requires !IsBlank(clientId)
    ensures var t := LoginRun(Ready(clientId),
                              [SignInSilently, SilentCompleted(true), AuthCodeCompleted(Some(code))]);
            && t.out == [IsAuthenticatedCalled, ServerAccessRequested(Some(clientId)), LoginSucceeded(code)]
            && !t.state.signingIn
  {
    var s0 := Ready(clientId);
    var e1, e2, e3 := SignInSilently, SilentCompleted(true), AuthCodeCompleted(Some(code));
    var s1 := s0.(silent := Pending(1, 1));
    var s2 := s1.(signingIn := true, silent := Pending(0, 1), authCode := Pending(1, 1));
    var s3 := s2.(signingIn := false, authCode := Pending(0, 1));
    SilentStartStep(s0);
    AuthenticatedSilentStep(s1);
    AuthCodeSuccessStep(s2, code);
    var t1, t2, t3 := LoginTransition(s0, e1), LoginTransition(s1, e2), LoginTransition(s2, e3);
    assert LoginRun(s2, [e3]) == LoginStep(s3, t3.out);
    assert [e2, e3][1..] == [e3];
    assert LoginRun(s1, [e2, e3]) == LoginStep(s3, t2.out + t3.out);
    assert [e1, e2, e3][1..] == [e2, e3];
  }

  /** Manual path: an unauthenticated silent check falls through to manual
      sign-in; its authenticated result leads to the auth-code request, whose
      result reaches `onLoginSuccess` unchanged. */
  lemma ManualPathDeliversAuthCode(clientId: string, code: string)
    requires !IsBlank(clientId)
    ensures var t := LoginRun(Ready(clientId),
                              [SignInSilently, SilentCompleted(false), ManualCompleted(true),
                               AuthCodeCompleted(Some(code))]);
            && t.out == [IsAuthenticatedCalled, SignInCalled, ServerAccessRequested(Some(clientId)),
                         LoginSucceeded(code)]
            && !t.state.signingIn
  {
    var s0 := Ready(clientId);
    var e1, e2, e3, e4 := SignInSilently, SilentCompleted(false), ManualCompleted(true), AuthCodeCompleted(Some(code));
    var s1 := s0.(silent := Pending(1, 1));
    var s2 := s1.(signingIn := true, silent := Pending(0, 1), manual := Pending(1, 1));
    var s3 := s2.(manual := Pending(0, 1), authCode := Pending(1, 1));
    var s4 := s3.(signingIn := false, authCode := Pending(0, 1));
    SilentStartStep(s0);
    ReadinessCarries(s0, s1);
    FallThroughStep(s1);
    AuthenticatedManualStep(s2);
    AuthCodeSuccessStep(s3, code);
    var t1, t2, t3, t4 := LoginTransition(s0, e1), LoginTransition(s1, e2), LoginTransition(s2, e3), LoginTransition(s3, e4);
    assert LoginRun(s3, [e4]) == LoginStep(s4, t4.out);
    assert [e3, e4][1..] == [e4];
    assert LoginRun(s2, [e3, e4]) == LoginStep(s4, t3.out + t4.out);
    assert [e2, e3, e4][1..] == [e3, e4];
    assert LoginRun(s1, [e2, e3, e4]) == LoginStep(s4, t2.out + t3.out + t4.out);
    assert [e1, e2, e3, e4][1..] == [e2, e3, e4];
  }

  /** A ready service with a usable Activity starts one silent check. */
  lemma SilentStartStep(s: LoginState)
    requires !NotReady(s) && s.activityUsable
    ensures LoginTransition(s, SignInSilently) == LoginStep(s.(silent := Issue(s.silent)), [IsAuthenticatedCalled])
  {
  }

  /** An authenticated silent result with the guard clear requests the auth
      code. */
  lemma AuthenticatedSilentStep(s: LoginState)
    requires s.activityUsable && !s.signingIn && s.silent.completions > 0
    ensures LoginTransition(s, SilentCompleted(true)) ==
            LoginStep(s.(signingIn := true, silent := s.silent.(completions := s.silent.completions - 1),
                         authCode := Issue(s.authCode)),
                      [ServerAccessRequested(s.clientId)])
  {
  }

  /** An authenticated manual result clears the guard and requests the auth
      code, which sets it again. */
  lemma AuthenticatedManualStep(s: LoginState)
    requires s.activityUsable && s.manual.completions > 0
    ensures LoginTransition(s, ManualCompleted(true)) ==
            LoginStep(s.(signingIn := true, manual := s.manual.(completions := s.manual.completions - 1),
                         authCode := Issue(s.authCode)),
                      [ServerAccessRequested(s.clientId)])
  {
  }

  /** A successful auth-code result clears the guard and hands the code to
      the listener unchanged. */
  lemma AuthCodeSuccessStep(s: LoginState, code: string)
    requires s.listenerSet && s.authCode.completions > 0
    ensures LoginTransition(s, AuthCodeCompleted(Some(code))) ==
            LoginStep(s.(signingIn := false, authCode := s.authCode.(completions := s.authCode.completions - 1)),
                      [LoginSucceeded(code)])
  {
  }

  /** An unauthenticated silent result with the guard clear starts a manual
      sign-in. */
  lemma FallThroughStep(s: LoginState)
    requires !NotReady(s) && s.activityUsable && !s.signingIn && s.silent.completions > 0
    ensures LoginTransition(s, SilentCompleted(false)) ==
            LoginStep(s.(signingIn := true, silent := s.silent.(completions := s.silent.completions - 1),
                         manual := Issue(s.manual)),
                      [SignInCalled])
  {
    var s1 := s.(silent := s.silent.(completions := s.silent.completions - 1));
    ReadinessCarries(s, s1);
  }

  /** The unsuccessful completion of an auth-code request clears the guard and
      reports the fixed failure message. */
  lemma AuthCodeUnsuccessfulStep(s: LoginState)
    requires s.activityUsable && s.listenerSet && s.authCode.completions > 0
    ensures LoginTransition(s, AuthCodeCompleted(None)) ==
            LoginStep(s.(signingIn := false, authCode := s.authCode.(completions := s.authCode.completions - 1)),
                      [ErrorShown(MSG_AUTH_CODE_FAILED), LoginFailed(MSG_AUTH_CODE_FAILED)])
  {
  }

  /** The failure listener of an auth-code request clears the guard and
      reports the mapped message. */
  lemma AuthCodeFailureStep(s: LoginState, error: SignInError)
    requires s.activityUsable && s.listenerSet && s.authCode.failures > 0
    ensures var m := ResolveSignInError(error);
            LoginTransition(s, AuthCodeFailed(error)) ==
            LoginStep(s.(signingIn := false, authCode := s.authCode.(failures := s.authCode.failures - 1)),
                      [ErrorShown(m), LoginFailed(m)])
  {
  }

  /** The Task API calls both listeners of a failed task. For a failed
      auth-code request the service then reports the failure twice: once from
      the unsuccessful completion and once from the failure listener. */
  lemma FailedAuthCodeReportedTwice(s: LoginState, error: SignInError)
    requires s.activityUsable && s.listenerSet && s.authCode == Pending(1, 1)
    ensures var m := ResolveSignInError(error);
            var t := LoginRun(s, [AuthCodeCompleted(None), AuthCodeFailed(error)]);
            && t.out == [ErrorShown(MSG_AUTH_CODE_FAILED), LoginFailed(MSG_AUTH_CODE_FAILED),
                         ErrorShown(m), LoginFailed(m)]
            && t.state == s.(signingIn := false, authCode := Pending(0, 0))
  {
    var m := ResolveSignInError(error);
    var e1, e2 := AuthCodeCompleted(None), AuthCodeFailed(error);
    var s1 := s.(signingIn := false, authCode := Pending(0, 1));
    var s2 := s.(signingIn := false, authCode := Pending(0, 0));
    var t1 := LoginTransition(s, e1);
    assert t1 == LoginStep(s1, [ErrorShown(MSG_AUTH_CODE_FAILED), LoginFailed(MSG_AUTH_CODE_FAILED)]);
    var t2 := LoginTransition(s1, e2);
    assert t2 == LoginStep(s2, [ErrorShown(m), LoginFailed(m)]);
    assert LoginRun(s1, [e2]) == LoginStep(s2, t2.out);
    assert [e1, e2][1..] == [e2];
  }

  /** Because both listeners of one task clear `signingIn`, the late listener
      of an already-completed auth-code task clears the flag while a newer
      manual sign-in is in flight, and a second manual sign-in can then start
      before the first one has answered. */
  lemma LateListenerReleasesGuard(s: LoginState, error: SignInError)
    requires !NotReady(s) && s.activityUsable && s.signingIn
    requires s.authCode == Pending(1, 1) && s.manual == Pending(0, 0) && s.silent.completions >= 2
    ensures LoginInv(s)
    ensures var m := ResolveSignInError(error);
            var t := LoginRun(s, [AuthCodeCompleted(None), SilentCompleted(false), AuthCodeFailed(error),
                                  SilentCompleted(false)]);
            && t.state.manual == Pending(2, 2)
            && t.state.signingIn
            && t.out == [ErrorShown(MSG_AUTH_CODE_FAILED), LoginFailed(MSG_AUTH_CODE_FAILED), SignInCalled,
                         ErrorShown(m), LoginFailed(m), SignInCalled]
  {
    var m := ResolveSignInError(error);
    var e1, e2, e3, e4 := AuthCodeCompleted(None), SilentCompleted(false), AuthCodeFailed(error), SilentCompleted(false);
    var c := s.silent.completions;
    var s1 := s.(signingIn := false, authCode := Pending(0, 1));
    var s2 := s1.(signingIn := true, silent := s.silent.(completions := c - 1), manual := Pending(1, 1));
    var s3 := s2.(signingIn := false, authCode := Pending(0, 0));
    var s4 := s3.(signingIn := true, silent := s.silent.(completions := c - 2), manual := Pending(2, 2));
    AuthCodeUnsuccessfulStep(s);
    ReadinessCarries(s, s1);
    FallThroughStep(s1);
    AuthCodeFailureStep(s2, error);
    ReadinessCarries(s, s3);
    FallThroughStep(s3);
    var t1, t2, t3, t4 := LoginTransition(s, e1), LoginTransition(s1, e2), LoginTransition(s2, e3), LoginTransition(s3, e4);
    assert LoginRun(s3, [e4]) == LoginStep(s4, t4.out);
    assert [e3, e4][1..] == [e4];
    assert LoginRun(s2, [e3, e4]) == LoginStep(s4, t3.out + t4.out);
    assert [e2, e3, e4][1..] == [e3, e4];
    assert LoginRun(s1, [e2, e3, e4]) == LoginStep(s4, t2.out + t3.out + t4.out);
    assert [e1, e2, e3, e4][1..] == [e2, e3, e4];
  }

  // ---------------------------------------------------------------------------
  // Error messages
  // ---------------------------------------------------------------------------

  /** The message for an unnamed status code is the fixed prefix followed by
      the code in decimal, and the code can be read back from it. */
  lemma OtherCodeMessageRecoversCode(code: UnnamedStatusCode)
    ensures var m := ResolveSignInError(ApiError(OtherCode(code)));
            && m[..|MSG_CODE_PREFIX|] == MSG_CODE_PREFIX
            && IntFromString(m[|MSG_CODE_PREFIX|..]) == code
  {
    var m := ResolveSignInError(ApiError(OtherCode(code)));
    assert m[|MSG_CODE_PREFIX|..] == IntToString(code);
    IntRoundTrip(code);
  }

  /** No two status codes share a message: the four named ones have distinct
      fixed messages, none of which starts with the prefix the other codes
      get, and different unnamed codes print differently. */
  lemma ApiMessagesDistinct(c1: StatusCode, c2: StatusCode)
    ensures ResolveSignInError(ApiError(c1)) == ResolveSignInError(ApiError(c2)) ==> c1 == c2
  {
    var m1 := ResolveSignInError(ApiError(c1));
    var m2 := ResolveSignInError(ApiError(c2));
    if m1 == m2 {
      if c1.OtherCode? && c2.OtherCode? {
        assert m1[|MSG_CODE_PREFIX|..] == IntToString(c1.code);
        assert m2[|MSG_CODE_PREFIX|..] == IntToString(c2.code);
        IntToStringInjective(c1.code, c2.code);
      } else if !c1.OtherCode? && !c2.OtherCode? {
        assert MSG_CANCELED[0] != MSG_SIGN_IN_REQUIRED[0];
        assert MSG_CANCELED[0] != MSG_NETWORK_ERROR[0];
        assert MSG_CANCELED[0] != MSG_TIMEOUT[0];
        assert MSG_SIGN_IN_REQUIRED[0] != MSG_NETWORK_ERROR[0];
        assert MSG_SIGN_IN_REQUIRED[0] != MSG_TIMEOUT[0];
        assert MSG_NETWORK_ERROR[0] != MSG_TIMEOUT[0];
      }
    }
  }

  /** Different `int` status codes never give the same message, so the
      listener can tell every status code apart. */
  lemma StatusCodeMessagesDistinct(a: Int32, b: Int32)
    ensures ResolveSignInError(ApiError(StatusOf(a))) == ResolveSignInError(ApiError(StatusOf(b))) ==> a == b
  {
    ApiMessagesDistinct(StatusOf(a), StatusOf(b));
  }
}

=== FILE: rewarded_ads.dfy ===
/** The dual-slot rewarded-ad controller shared by `RewardedVideoService` and
    `RewardedInterstitialService`: two ad slots, a loading flag per slot, a
    rotation counter choosing the slot to show next, an "is showing" flag, and
    the per-display reward flag. Each SDK callback and each posted runnable is
    one atomic step; what the controller asks of the SDK and tells its listener
    is returned as a trace of `Output`s. */
module RewardedAds {
  import opened Wrappers
  import opened JavaLang

  /** An ad object handed out by the SDK. Every successful load yields a fresh
      one (`nextAd`), so comparing two of them is comparing identities. */
  type Ad = nat

  datatype Slot = SlotA | SlotB

  /** One display in progress: the ad handed to `show` and whether the
      reward callback has fired during it. */
  datatype Display = Display(ad: Ad, rewardEarned: bool)

  /** How `getAvailableAd` turns the rotation counter into a slot.
      `JavaRemainder` is the code as written, `currentSlot.get() % 2` with
      Java's truncating `%`; `FloorMod` is the parity the rotation is evidently
      meant to use. The controller is built with one of them, and every
      property below holds for both. */
  datatype Rotation = JavaRemainder | FloorMod

  /** Progress of the first `loadAllRewardedAds`. The SDK-initialisation
      thread hands it to `CommonUtil.runOnUiThread`, which drops it for good
      when the Activity is gone at that moment and otherwise queues it on the
      UI thread. */
  datatype InitialLoad =
    | NotPending    // not started yet, already run, or dropped
    | SdkStarting   // the SDK-initialisation thread is running
    | LoadPosted    // queued on the UI thread and not run yet

  datatype Controller = Controller(
    rotation: Rotation,
    adUnitId: string,
    activityAttached: bool,   // the weakly held Activity is still there
    listenerSet: bool,        // `adCallback != null`
    sdkInitCalled: bool,      // `isMobileAdsInitializeCalled`
    initialLoad: InitialLoad,
    slotA: Option<Ad>,
    slotB: Option<Ad>,
    loadingA: bool,
    loadingB: bool,
    retriesA: nat,            // retries scheduled for slot A and not yet run
    retriesB: nat,
    currentSlot: Int32,
    isShowing: bool,
    display: Option<Display>,
    nextAd: Ad)

  /** What the controller does towards the SDK and towards its listener. */
  datatype Output =
    | LoadRequested(slot: Slot, unitId: string)   // RewardedAd.load for a slot
    | ShowRequested(ad: Ad)                       // ad.show(activity, ...)
    | RewardEarned(earned: bool)                  // listener.onRewardEarned
    | AdShowFailed(message: string)               // listener.onAdShowFailed

  datatype Transition = Transition(state: Controller, out: seq<Output>)

  /** Requests from the host application and callbacks from the SDK. */
  datatype Event =
    | Preload                     // preloadAds()
    | ShowAd                      // showRewardedVideoAd() / showRewardedInterstitialAd()
    | LoadSucceeded(slot: Slot)   // onAdLoaded for the slot's outstanding load
    | LoadFailed(slot: Slot)      // onAdFailedToLoad for the slot's outstanding load
    | RetryDue(slot: Slot)        // a retry thread wakes up after its delay
    | AdDismissed                 // onAdDismissedFullScreenContent
    | AdFailedToShow(message: string)
    | UserEarnedReward            // the OnUserEarnedRewardListener passed to show
    | SetListener                 // setAdEventListener(non-null)
    | ActivityReleased            // the weak reference has been cleared
    | SdkInitialised              // the SDK-initialisation thread reaches runOnUiThread
    | InitialLoadDue              // the load it posted runs on the UI thread

  datatype InitError = BlankAdUnitId

  /** Delay before a failed load is retried, in milliseconds. */
  const RETRY_DELAY_MS: nat := 5000

  /** The controller as the singleton constructs it, selecting slots by
      `rotation` (the code's own rule is `JavaRemainder`). */
  function NewController(rotation: Rotation): (s: Controller)
    ensures s.rotation == rotation
    ensures s.slotA.None? && s.slotB.None? && !s.loadingA && !s.loadingB
    ensures s.currentSlot == 0 && !s.isShowing && s.display.None?
    ensures !s.activityAttached && !s.sdkInitCalled && s.initialLoad == NotPending
  {
    Controller(rotation, "", false, false, false, NotPending, None, None, false, false, 0, 0, 0, false, None, 0)
  }

  // ---------------------------------------------------------------------------
  // Per-slot accessors
  // ---------------------------------------------------------------------------

  function SlotAd(s: Controller, slot: Slot): Option<Ad> {
    if slot == SlotA then s.slotA else s.slotB
  }

  predicate IsLoading(s: Controller, slot: Slot) {
    if slot == SlotA then s.loadingA else s.loadingB
  }

  function PendingRetries(s: Controller, slot: Slot): nat {
    if slot == SlotA then s.retriesA else s.retriesB
  }

  function Other(slot: Slot): Slot {
    if slot == SlotA then SlotB else SlotA
  }

  /** `s` with only the given slot's ad replaced. */
  function WithAd(s: Controller, slot: Slot, ad: Option<Ad>): (r: Controller)
    ensures SlotAd(r, slot) == ad && SlotAd(r, Other(slot)) == SlotAd(s, Other(slot))
    ensures r == s.(slotA := r.slotA, slotB := r.slotB)
  {
    if slot == SlotA then s.(slotA := ad) else s.(slotB := ad)
  }

  /** `s` with only the given slot's loading flag replaced. */
  function WithLoading(s: Controller, slot: Slot, loading: bool): (r: Controller)
    ensures IsLoading(r, slot) == loading && IsLoading(r, Other(slot)) == IsLoading(s, Other(slot))
    ensures r == s.(loadingA := r.loadingA, loadingB := r.loadingB)
  {
    if slot == SlotA then s.(loadingA := loading) else s.(loadingB := loading)
  }

  /** `s` with only the given slot's pending-retry count replaced. */
  function WithRetries(s: Controller, slot: Slot, n: nat): (r: Controller)
    ensures PendingRetries(r, slot) == n
    ensures PendingRetries(r, Other(slot)) == PendingRetries(s, Other(slot))
    ensures r == s.(retriesA := r.retriesA, retriesB := r.retriesB)
  {
    if slot == SlotA then s.(retriesA := n) else s.(retriesB := n)
  }

  predicate ShowsNothing(out: seq<Output>) {
    forall i :: 0 <= i < |out| ==> !out[i].ShowRequested?
  }

  predicate OnlyLoads(out: seq<Output>) {
    forall i :: 0 <= i < |out| ==> out[i].LoadRequested?
  }

  // ---------------------------------------------------------------------------
  // Queries
  // ---------------------------------------------------------------------------

  /** `hasAvailableAd()`. */
  predicate HasAvailableAd(s: Controller) {
    s.slotA.Some? || s.slotB.Some?
  }

  /** `getLoadedAdCount()`: how many of the two slots hold an ad. */
  function LoadedAdCount(s: Controller): (n: nat)
    ensures n <= 2
    ensures n > 0 <==> HasAvailableAd(s)
    ensures n == 2 <==> s.slotA.Some? && s.slotB.Some?
    ensures n == |set slot | slot in {SlotA, SlotB} && SlotAd(s, slot).Some?|
  {
    FilledSlotsCard(s);
    (if s.slotA.Some? then 1 else 0) + (if s.slotB.Some? then 1 else 0)
  }

  lemma FilledSlotsCard(s: Controller)
    ensures |set slot | slot in {SlotA, SlotB} && SlotAd(s, slot).Some?|
            == (if s.slotA.Some? then 1 else 0) + (if s.slotB.Some? then 1 else 0)
  {
    var filled := set slot | slot in {SlotA, SlotB} && SlotAd(s, slot).Some?;
    if s.slotA.Some? && s.slotB.Some? {
      assert filled == {SlotA, SlotB};
    } else if s.slotA.Some? {
      assert filled == {SlotA};
    } else if s.slotB.Some? {
      assert filled == {SlotB};
    } else {
      assert filled == {};
    }
  }

  // ---------------------------------------------------------------------------
  // Slot selection (getAvailableAd)
  // ---------------------------------------------------------------------------

  /** The chosen ad (if any) and the counter after the choice. */
  datatype Selection = Selection(ad: Option<Ad>, cursor: Int32)

  /** The slot the rotation counter prefers: `Math.floorMod(cursor, 2)`. */
  function PreferredSlot(cursor: Int32): Slot {
    if cursor % 2 == 0 then SlotA else SlotB
  }

  /** `getAvailableAd` as it is evidently meant to work: take the preferred slot
      and advance the counter if that slot holds an ad; otherwise fall back to
      A, then B, leaving the counter alone. The source computes the preferred
      slot with Java's `%`, which goes wrong for negative counters; that version
      is `SelectAsWritten`. */
  function Select(a: Option<Ad>, b: Option<Ad>, cursor: Int32): (sel: Selection)
    ensures sel.ad.None? <==> a.None? && b.None?
    ensures sel.ad.Some? ==> sel.ad == a || sel.ad == b
    ensures var pref := if PreferredSlot(cursor) == SlotA then a else b;
            if pref.Some? then sel.ad == pref && sel.cursor == Increment32(cursor)
            else sel.cursor == cursor && sel.ad == (if a.Some? then a else b)
  {
    var slot := cursor % 2;
    if slot == 0 && a.Some? then Selection(a, Increment32(cursor))
    else if slot == 1 && b.Some? then Selection(b, Increment32(cursor))
    else if a.Some? then Selection(a, cursor)
    else if b.Some? then Selection(b, cursor)
    else Selection(None, cursor)
  }

  /** `getAvailableAd` exactly as written: `currentSlot.get() % 2` is Java's
      truncating remainder, which is -1 for a negative odd counter, so neither
      rotation branch applies there and the counter never moves again. */
  function SelectAsWritten(a: Option<Ad>, b: Option<Ad>, cursor: Int32): (sel: Selection)
    ensures sel.ad.None? <==> a.None? && b.None?
    ensures sel.ad.Some? ==> sel.ad == a || sel.ad == b
    ensures var rem := TruncRem(cursor, 2);
            var pref := if rem == 0 then a else if rem == 1 then b else None;
            if pref.Some? then sel.ad == pref && sel.cursor == Increment32(cursor)
            else sel.cursor == cursor && sel.ad == (if a.Some? then a else b)
  {
    var slot := TruncRem(cursor, 2);
    if slot == 0 && a.Some? then Selection(a, Increment32(cursor))
    else if slot == 1 && b.Some? then Selection(b, Increment32(cursor))
    else if a.Some? then Selection(a, cursor)
    else if b.Some? then Selection(b, cursor)
    else Selection(None, cursor)
  }

  /** The selection the controller makes under its rotation rule. */
  function SelectBy(rotation: Rotation, a: Option<Ad>, b: Option<Ad>, cursor: Int32): (sel: Selection)
    ensures sel.ad.None? <==> a.None? && b.None?
    ensures sel.ad.Some? ==> sel.ad == a || sel.ad == b
    ensures sel.ad.None? ==> sel.cursor == cursor
  {
    match rotation
    case JavaRemainder => SelectAsWritten(a, b, cursor)
    case FloorMod => Select(a, b, cursor)
  }

  // ---------------------------------------------------------------------------
  // clearUsedAd, loadRewardedAdForSlot, loadAllRewardedAds
  // ---------------------------------------------------------------------------

  /** `clearUsedAd`: empty the slot holding `used` (A is checked first); if no
      slot holds it, nothing changes. */
  function ClearUsedAd(s: Controller, used: Ad): (r: Controller)
    ensures r.slotA == (if s.slotA == Some(used) then None else s.slotA)
    ensures r.slotB == (if s.slotA != Some(used) && s.slotB == Some(used) then None else s.slotB)
    ensures r == s.(slotA := r.slotA, slotB := r.slotB)
  {
    if s.slotA == Some(used) then s.(slotA := None)
    else if s.slotB == Some(used) then s.(slotB := None)
    else s
  }

  /** `loadRewardedAdForSlot`: with the Activity present, a slot that is
      neither filled nor loading is marked loading and one SDK load is issued
      for it; in every other case nothing happens. */
  function LoadSlot(s: Controller, slot: Slot): (t: Transition)
    ensures var issues := s.activityAttached && SlotAd(s, slot).None? && !IsLoading(s, slot);
            (issues ==> t.state == WithLoading(s, slot, true) && t.out == [LoadRequested(slot, s.adUnitId)])
            && (!issues ==> t.state == s && t.out == [])
  {
    if !s.activityAttached then Transition(s, [])
    else if SlotAd(s, slot).Some? || IsLoading(s, slot) then Transition(s, [])
    else Transition(WithLoading(s, slot, true), [LoadRequested(slot, s.adUnitId)])
  }

  /** `loadAllRewardedAds`: the load request for slot A, then the one for B
      (`RewardedAdsProofs.LoadAllLoadsEachSlot` shows it is `LoadSlot` for A
      followed by `LoadSlot` for B). Afterwards (with the Activity present) each slot is filled or loading,
      and nothing but the loading flags has changed. */
  function LoadAll(s: Controller): (t: Transition)
    ensures OnlyLoads(t.out) && |t.out| <= 2
    ensures t.state == s.(loadingA := t.state.loadingA, loadingB := t.state.loadingB)
    ensures s.loadingA ==> t.state.loadingA
    ensures s.loadingB ==> t.state.loadingB
    ensures t.state.loadingA ==> s.loadingA || s.slotA.None?
    ensures t.state.loadingB ==> s.loadingB || s.slotB.None?
    ensures s.activityAttached ==>
              (t.state.slotA.Some? || t.state.loadingA) && (t.state.slotB.Some? || t.state.loadingB)
    ensures forall i :: 0 <= i < |t.out| ==> t.out[i].unitId == s.adUnitId
    ensures !s.activityAttached ==> t == Transition(s, [])
  {
    var loadA := s.activityAttached && s.slotA.None? && !s.loadingA;
    var loadB := s.activityAttached && s.slotB.None? && !s.loadingB;
    Transition(s.(loadingA := s.loadingA || loadA, loadingB := s.loadingB || loadB),
               (if loadA then [LoadRequested(SlotA, s.adUnitId)] else [])
               + (if loadB then [LoadRequested(SlotB, s.adUnitId)] else []))
  }

  // ---------------------------------------------------------------------------
  // showRewardedVideoAd and its display callbacks
  // ---------------------------------------------------------------------------

  /** `showRewardedVideoAd`. The slot is chosen first, so the counter may
      advance even when the Activity is gone or a display is already running
      and the show is then abandoned. With no ad at all, both slots are asked
      to load instead. Otherwise `isShowing` is set, a new display starts with
      its reward flag cleared, and exactly one show call goes out. The chosen
      ad stays in its slot until the display ends. */
  function Show(s: Controller): (t: Transition)
    ensures t.state.currentSlot == SelectBy(s.rotation, s.slotA, s.slotB, s.currentSlot).cursor
    ensures t.state.slotA == s.slotA && t.state.slotB == s.slotB
    ensures !HasAvailableAd(s) ==> ShowsNothing(t.out) && t == LoadAll(s)
    ensures HasAvailableAd(s) && (!s.activityAttached || s.isShowing) ==>
              t == Transition(s.(currentSlot := t.state.currentSlot), [])
    ensures HasAvailableAd(s) && s.activityAttached && !s.isShowing ==>
              var ad := SelectBy(s.rotation, s.slotA, s.slotB, s.currentSlot).ad.value;
              && t.out == [ShowRequested(ad)]
              && t.state == s.(currentSlot := t.state.currentSlot, isShowing := true,
                               display := Some(Display(ad, false)))
              && (Some(ad) == s.slotA || Some(ad) == s.slotB)
  {
    var sel := SelectBy(s.rotation, s.slotA, s.slotB, s.currentSlot);
    var s1 := s.(currentSlot := sel.cursor);
    if sel.ad.None? then assert s1 == s; LoadAll(s1)
    else if !s1.activityAttached then Transition(s1, [])
    else if s1.isShowing then Transition(s1, [])
    else Transition(s1.(isShowing := true, display := Some(Display(sel.ad.value, false))),
                    [ShowRequested(sel.ad.value)])
  }

  /** `showBackupAd`: re-enter `Show` only when some slot still holds an ad and
      no display is running. */
  function ShowBackup(s: Controller): (t: Transition)
    ensures (HasAvailableAd(s) && !s.isShowing) ==> t == Show(s)
    ensures !(HasAvailableAd(s) && !s.isShowing) ==> t == Transition(s, [])
  {
    if HasAvailableAd(s) && !s.isShowing then Show(s) else Transition(s, [])
  }

  /** The reward callback passed to `show`: mark the running display rewarded
      and tell the listener `onRewardEarned(true)` right away. The callback has
      no guard, so one arriving after its display ended still notifies the
      listener; the flag it sets then belongs to a finished display. */
  function EarnReward(s: Controller): (t: Transition)
    ensures t.out == (if s.listenerSet then [RewardEarned(true)] else [])
    ensures s.display.None? ==> t.state == s
    ensures s.display.Some? ==>
              t.state == s.(display := Some(s.display.value.(rewardEarned := true)))
  {
    var notify := if s.listenerSet then [RewardEarned(true)] else [];
    match s.display
    case None => Transition(s, notify)
    case Some(d) => Transition(s.(display := Some(d.(rewardEarned := true))), notify)
  }

  /** Dismissal of the running display: free its slot, clear `isShowing`, tell
      the listener `onRewardEarned(false)` only if no reward fired during the
      display, then ask both slots to load. */
  function Dismiss(s: Controller): (t: Transition)
    ensures s.display.None? ==> t == Transition(s, [])
    ensures s.display.Some? ==>
              var d := s.display.value;
              var cleared := ClearUsedAd(s, d.ad).(isShowing := false, display := None);
              var notify := if !d.rewardEarned && s.listenerSet then [RewardEarned(false)] else [];
              && |notify| <= |t.out| && t.out[..|notify|] == notify
              && OnlyLoads(t.out[|notify|..])
              && t == Transition(LoadAll(cleared).state, notify + LoadAll(cleared).out)
  {
    match s.display
    case None => Transition(s, [])
    case Some(d) =>
      var cleared := ClearUsedAd(s, d.ad).(isShowing := false, display := None);
      var notify := if !d.rewardEarned && s.listenerSet then [RewardEarned(false)] else [];
      var reload := LoadAll(cleared);
      assert (notify + reload.out)[..|notify|] == notify;
      assert (notify + reload.out)[|notify|..] == reload.out;
      Transition(reload.state, notify + reload.out)
  }

  /** Failure to show the running display, in the source's order: free its
      slot, clear `isShowing`, tell the listener the current reward flag and
      then the failure message, try a backup display, ask both slots to load. */
  function FailToShow(s: Controller, message: string): (t: Transition)
    ensures s.display.None? ==> t == Transition(s, [])
    ensures s.display.Some? ==>
              var d := s.display.value;
              var cleared := ClearUsedAd(s, d.ad).(isShowing := false, display := None);
              var notify := if s.listenerSet then [RewardEarned(d.rewardEarned), AdShowFailed(message)] else [];
              var backup := ShowBackup(cleared);
              var reload := LoadAll(backup.state);
              && t.out == notify + backup.out + reload.out
              && t.state == reload.state
  {
    match s.display
    case None => Transition(s, [])
    case Some(d) =>
      var cleared := ClearUsedAd(s, d.ad).(isShowing := false, display := None);
      var notify := if s.listenerSet then [RewardEarned(d.rewardEarned), AdShowFailed(message)] else [];
      var backup := ShowBackup(cleared);
      var reload := LoadAll(backup.state);
      Transition(reload.state, notify + backup.out + reload.out)
  }

  // ---------------------------------------------------------------------------
  // Load completions and retries
  // ---------------------------------------------------------------------------

  /** `onAdLoaded` for the slot's outstanding load: the fresh ad goes into that
      slot only and its loading flag is cleared. No load outstanding: no-op. */
  function CompleteLoad(s: Controller, slot: Slot): (t: Transition)
    ensures t.out == []
    ensures !IsLoading(s, slot) ==> t.state == s
    ensures IsLoading(s, slot) ==>
              && SlotAd(t.state, slot) == Some(s.nextAd)
              && !IsLoading(t.state, slot)
              && t.state.nextAd == s.nextAd + 1
              && t.state == WithLoading(WithAd(s, slot, Some(s.nextAd)), slot, false).(nextAd := s.nextAd + 1)
  {
    if !IsLoading(s, slot) then Transition(s, [])
    else Transition(WithLoading(WithAd(s, slot, Some(s.nextAd)), slot, false).(nextAd := s.nextAd + 1), [])
  }

  /** `onAdFailedToLoad` for the slot's outstanding load: clear the loading
      flag, leave the slot empty and schedule a retry of the same slot after
      `RETRY_DELAY_MS`. No load outstanding: no-op. */
  function FailLoad(s: Controller, slot: Slot): (t: Transition)
    ensures t.out == []
    ensures !IsLoading(s, slot) ==> t.state == s
    ensures IsLoading(s, slot) ==>
              && !IsLoading(t.state, slot)
              && PendingRetries(t.state, slot) == PendingRetries(s, slot) + 1
              && t.state == WithRetries(WithLoading(s, slot, false), slot, PendingRetries(s, slot) + 1)
  {
    if !IsLoading(s, slot) then Transition(s, [])
    else Transition(WithRetries(WithLoading(s, slot, false), slot, PendingRetries(s, slot) + 1), [])
  }

  /** `retryLoadAd` waking up: one scheduled retry of the slot is consumed and
      runs `loadRewardedAdForSlot` for it. */
  function RunRetry(s: Controller, slot: Slot): (t: Transition)
    ensures PendingRetries(s, slot) == 0 ==> t == Transition(s, [])
    ensures PendingRetries(s, slot) > 0 ==>
              t == LoadSlot(WithRetries(s, slot, PendingRetries(s, slot) - 1), slot)
  {
    if PendingRetries(s, slot) == 0 then Transition(s, [])
    else LoadSlot(WithRetries(s, slot, PendingRetries(s, slot) - 1), slot)
  }

  // ---------------------------------------------------------------------------
  // init and the event loop
  // ---------------------------------------------------------------------------

  /** `init(activity, adUnitId, callback)`: a blank unit id is rejected before
      any field is assigned; otherwise the Activity, id and listener are
      stored. The first successful `init` (only) starts the SDK-initialisation
      thread, which later posts `loadAllRewardedAds` to the UI thread
      (`SdkInitialised`), where it runs later still (`InitialLoadDue`); no load
      runs inside `init` itself. */
  function Init(s: Controller, adUnitId: string): (r: Result<Controller, InitError>)
    ensures r.Failure? <==> IsBlank(adUnitId)
    ensures r.Success? ==>
              && r.value.adUnitId == adUnitId
              && r.value.activityAttached && r.value.listenerSet && r.value.sdkInitCalled
              && r.value.initialLoad == (if s.sdkInitCalled then s.initialLoad else SdkStarting)
              && r.value == s.(adUnitId := adUnitId, activityAttached := true, listenerSet := true,
                               sdkInitCalled := true, initialLoad := r.value.initialLoad)
  {
    if IsBlank(adUnitId) then Failure(BlankAdUnitId)
    else
      var s1 := s.(activityAttached := true, adUnitId := adUnitId, listenerSet := true);
      if s.sdkInitCalled then Success(s1)
      else Success(s1.(sdkInitCalled := true, initialLoad := SdkStarting))
  }

  /** The SDK-initialisation thread hands the first load to
      `CommonUtil.runOnUiThread` with the Activity it sees at that moment: the
      load is queued when the Activity is there and dropped for good when not.
      Nothing is sent either way. */
  function PostInitialLoad(s: Controller): (t: Transition)
    ensures t.out == []
    ensures s.initialLoad != SdkStarting ==> t.state == s
    ensures s.initialLoad == SdkStarting ==>
              && t.state.initialLoad != SdkStarting
              && (t.state.initialLoad == LoadPosted <==> s.activityAttached)
              && t.state == s.(initialLoad := t.state.initialLoad)
  {
    if s.initialLoad != SdkStarting then Transition(s, [])
    else if s.activityAttached then Transition(s.(initialLoad := LoadPosted), [])
    else Transition(s.(initialLoad := NotPending), [])
  }

  /** The posted `loadAllRewardedAds` runs on the UI thread: both slots are
      loaded with the unit id and Activity the controller holds by then. */
  function RunInitialLoad(s: Controller): (t: Transition)
    ensures s.initialLoad != LoadPosted ==> t == Transition(s, [])
    ensures s.initialLoad == LoadPosted ==> t == LoadAll(s.(initialLoad := NotPending))
  {
    if s.initialLoad != LoadPosted then Transition(s, []) else LoadAll(s.(initialLoad := NotPending))
  }

  /** One atomic step of the controller. A load callback or a retry for a
      slot with nothing outstanding is a no-op, and so is a dismissal or a
      show failure with no display running; a reward callback always reaches
      the listener. */
  function Step(s: Controller, e: Event): Transition {
    match e
    case Preload => LoadAll(s)
    case ShowAd => Show(s)
    case LoadSucceeded(slot) => CompleteLoad(s, slot)
    case LoadFailed(slot) => FailLoad(s, slot)
    case RetryDue(slot) => RunRetry(s, slot)
    case AdDismissed => Dismiss(s)
    case AdFailedToShow(message) => FailToShow(s, message)
    case UserEarnedReward => EarnReward(s)
    case SetListener => Transition(s.(listenerSet := true), [])
    case ActivityReleased => Transition(s.(activityAttached := false), [])
    case SdkInitialised => PostInitialLoad(s)
    case InitialLoadDue => RunInitialLoad(s)
  }

  /** A sequence of steps, with their outputs concatenated in order. */
  function Run(s: Controller, events: seq<Event>): Transition
    decreases |events|
  {
    if |events| == 0 then Transition(s, [])
    else
      var first := Step(s, events[0]);
      var rest := Run(first.state, events[1..]);
      Transition(rest.state, first.out + rest.out)
  }

  /** What the host application and the SDK do to the controller, in any
      interleaving: `init` calls (one per created Activity, say) and events. */
  datatype Call = InitCall(adUnitId: string) | EventCall(e: Event)

  /** One call. A rejected `init` throws before assigning anything, so the
      controller stays as it was. */
  function ApplyCall(s: Controller, call: Call): Controller {
    match call
    case InitCall(adUnitId) =>
      var r := Init(s, adUnitId);
      if r.Success? then r.value else s
    case EventCall(e) => Step(s, e).state
  }

  /** The controller after a sequence of calls. */
  function Apply(s: Controller, calls: seq<Call>): Controller
    decreases |calls|
  {
    if |calls| == 0 then s else Apply(ApplyCall(s, calls[0]), calls[1..])
  }
}

=== FILE: rewarded_ads_proofs.dfy ===
/** Properties of the dual-slot controller: the invariant every reachable state
    keeps, what one step may send to the SDK and the listener, the reward
    notifications of a whole display, end-to-end scenarios, and
    the rotation-counter defect of the source's slot selection. */
module RewardedAdsProofs {
  import opened Wrappers
  import opened JavaLang
  import opened RewardedAds

  // ---------------------------------------------------------------------------
  // Counting outputs
  // ---------------------------------------------------------------------------

  datatype Kind = LoadOf(slot: Slot) | AnyShow | RewardOf(earned: bool) | AnyShowFailure

  predicate IsKind(o: Output, k: Kind) {
    match k
    case LoadOf(slot) => o.LoadRequested? && o.slot == slot
    case AnyShow => o.ShowRequested?
    case RewardOf(earned) => o == RewardEarned(earned)
    case AnyShowFailure => o.AdShowFailed?
  }

  /** How many outputs of kind `k` the trace holds. */
  function Count(out: seq<Output>, k: Kind): nat
    decreases |out|
  {
    if |out| == 0 then 0 else (if IsKind(out[0], k) then 1 else 0) + Count(out[1..], k)
  }

  lemma {:induction false} CountConcat(a: seq<Output>, b: seq<Output>, k: Kind)
    ensures Count(a + b, k) == Count(a, k) + Count(b, k)
    decreases |a|
  {
    if |a| == 0 {
      assert a + b == b;
    } else {
      assert (a + b)[1..] == a[1..] + b;
      CountConcat(a[1..], b, k);
    }
  }

  /** A trace made only of load requests holds nothing of another kind. */
  lemma {:induction false} CountOnlyLoads(out: seq<Output>, k: Kind)
    requires OnlyLoads(out) && !k.LoadOf?
    ensures Count(out, k) == 0
    decreases |out|
  {
    if |out| > 0 {
      CountOnlyLoads(out[1..], k);
    }
  }

  /** The number of reward callbacks in a sequence of events. */
  function RewardCallbacks(events: seq<Event>): nat
    decreases |events|
  {
    if |events| == 0 then 0
    else (if events[0] == UserEarnedReward then 1 else 0) + RewardCallbacks(events[1..])
  }

  // ---------------------------------------------------------------------------
  // The invariant
  // ---------------------------------------------------------------------------

  /** What holds in every reachable state: a loading slot is empty (so a slot
      has at most one load in flight and is never loaded and loading at once),
      the two slots hold different ads issued so far, `isShowing` is exactly
      "a display is running", the running display's ad is still in its slot,
      and an attached controller has a non-blank unit id. */
  predicate Inv(s: Controller) {
    && (s.loadingA ==> s.slotA.None?)
    && (s.loadingB ==> s.slotB.None?)
    && (s.slotA.Some? ==> s.slotA.value < s.nextAd)
    && (s.slotB.Some? ==> s.slotB.value < s.nextAd)
    && (s.slotA.Some? && s.slotB.Some? ==> s.slotA != s.slotB)
    && (s.isShowing <==> s.display.Some?)
    && (s.display.Some? ==> Some(s.display.value.ad) == s.slotA || Some(s.display.value.ad) == s.slotB)
    && (s.activityAttached ==> !IsBlank(s.adUnitId))
  }

  /** Loading both slots is the single-slot load for A followed by the one
      for B, outputs in that order. */
  lemma LoadAllLoadsEachSlot(s: Controller)
    ensures var a := LoadSlot(s, SlotA);
            var b := LoadSlot(a.state, SlotB);
            LoadAll(s) == Transition(b.state, a.out + b.out)
  {
  }

  lemma NewControllerInv(rotation: Rotation)
    ensures Inv(NewController(rotation))
  {
  }

  lemma InitPreservesInv(s: Controller, adUnitId: string)
    requires Inv(s)
    ensures Init(s, adUnitId).Success? ==> Inv(Init(s, adUnitId).value)
  {
  }

  lemma InitialLoadPreservesInv(s: Controller)
    requires Inv(s)
    ensures Inv(RunInitialLoad(s).state)
  {
    if s.initialLoad == LoadPosted {
      LoadAllPreservesInv(s.(initialLoad := NotPending));
    }
  }

  lemma LoadAllPreservesInv(s: Controller)
    requires Inv(s)
    ensures Inv(LoadAll(s).state)
  {
  }

  lemma ShowPreservesInv(s: Controller)
    requires Inv(s)
    ensures Inv(Show(s).state)
  {
    var sel := SelectBy(s.rotation, s.slotA, s.slotB, s.currentSlot);
    if sel.ad.None? {
      LoadAllPreservesInv(s.(currentSlot := sel.cursor));
    }
  }

  /** Ending a display frees exactly the displayed ad's slot. */
  lemma ClearUsedAdFreesOnlyThatAd(s: Controller, used: Ad)
    requires Inv(s)
    ensures var r := ClearUsedAd(s, used);
            && r.slotA != Some(used) && r.slotB != Some(used)
            && (s.slotA != Some(used) ==> r.slotA == s.slotA)
            && (s.slotB != Some(used) ==> r.slotB == s.slotB)
            && LoadedAdCount(r) == LoadedAdCount(s) - (if Some(used) == s.slotA || Some(used) == s.slotB then 1 else 0)
  {
  }

  lemma DismissPreservesInv(s: Controller)
    requires Inv(s)
    ensures Inv(Dismiss(s).state)
  {
    if s.display.Some? {
      var cleared := ClearUsedAd(s, s.display.value.ad).(isShowing := false, display := None);
      LoadAllPreservesInv(cleared);
    }
  }

  lemma FailToShowPreservesInv(s: Controller, message: string)
    requires Inv(s)
    ensures Inv(FailToShow(s, message).state)
  {
    if s.display.Some? {
      var cleared := ClearUsedAd(s, s.display.value.ad).(isShowing := false, display := None);
      assert Inv(cleared);
      if HasAvailableAd(cleared) {
        ShowPreservesInv(cleared);
      }
      LoadAllPreservesInv(ShowBackup(cleared).state);
    }
  }

  /** A finished load fills the slot with a fresh ad, distinct from the one in
      the other slot. */
  lemma CompleteLoadPreservesInv(s: Controller, slot: Slot)
    requires Inv(s)
    ensures Inv(CompleteLoad(s, slot).state)
  {
    var t := CompleteLoad(s, slot).state;
    if IsLoading(s, slot) {
      assert t.adUnitId == s.adUnitId && t.activityAttached == s.activityAttached;
      assert t.display == s.display && t.isShowing == s.isShowing;
      assert SlotAd(t, Other(slot)) == SlotAd(s, Other(slot));
    }
  }

  lemma FailLoadPreservesInv(s: Controller, slot: Slot)
    requires Inv(s)
    ensures Inv(FailLoad(s, slot).state)
  {
    var t := FailLoad(s, slot).state;
    assert t.adUnitId == s.adUnitId && t.activityAttached == s.activityAttached;
  }

  lemma LoadSlotPreservesInv(s: Controller, slot: Slot)
    requires Inv(s)
    ensures Inv(LoadSlot(s, slot).state)
  {
  }

  lemma WithRetriesPreservesInv(s: Controller, slot: Slot, n: nat)
    requires Inv(s)
    ensures Inv(WithRetries(s, slot, n))
  {
    var w := WithRetries(s, slot, n);
    assert w == s.(retriesA := w.retriesA, retriesB := w.retriesB);
  }

  lemma RetryPreservesInv(s: Controller, slot: Slot)
    requires Inv(s)
    ensures Inv(RunRetry(s, slot).state)
  {
    var t := RunRetry(s, slot).state;
    var n := PendingRetries(s, slot);
    if n > 0 {
      var w := WithRetries(s, slot, n - 1);
      WithRetriesPreservesInv(s, slot, n - 1);
      LoadSlotPreservesInv(w, slot);
      assert t == LoadSlot(w, slot).state;
    }
  }

  /** A load that succeeds stores a fresh ad, one neither slot held, in the
      slot it was issued for and nowhere else; the other slot, the counter and
      the display are untouched. */
  lemma CompleteLoadFillsOnlyItsSlot(s: Controller, slot: Slot)
    requires Inv(s) && IsLoading(s, slot)
    ensures var t := CompleteLoad(s, slot).state;
            && SlotAd(t, slot).Some? && !IsLoading(t, slot)
            && SlotAd(t, slot) != s.slotA && SlotAd(t, slot) != s.slotB
            && SlotAd(t, Other(slot)) == SlotAd(s, Other(slot))
            && IsLoading(t, Other(slot)) == IsLoading(s, Other(slot))
            && t.currentSlot == s.currentSlot && t.display == s.display
  {
  }

  /** A load that fails leaves its slot empty and makes one more retry due,
      and that retry issues a load for the same slot again; the other slot,
      the counter and the display are untouched. */
  lemma FailLoadSchedulesRetry(s: Controller, slot: Slot)
    requires Inv(s) && IsLoading(s, slot)
    ensures var t := FailLoad(s, slot).state;
            && SlotAd(t, slot).None? && !IsLoading(t, slot)
            && PendingRetries(t, slot) == PendingRetries(s, slot) + 1
            && SlotAd(t, Other(slot)) == SlotAd(s, Other(slot))
            && IsLoading(t, Other(slot)) == IsLoading(s, Other(slot))
            && t.currentSlot == s.currentSlot && t.display == s.display
            && (s.activityAttached ==> RunRetry(t, slot).out == [LoadRequested(slot, s.adUnitId)])
  {
    var t := FailLoad(s, slot).state;
    var w := WithRetries(t, slot, PendingRetries(t, slot) - 1);
    assert SlotAd(w, slot).None? && !IsLoading(w, slot) && w.activityAttached == s.activityAttached;
    assert w.adUnitId == s.adUnitId;
  }

  lemma StepPreservesInv(s: Controller, e: Event)
    requires Inv(s)
    ensures Inv(Step(s, e).state)
  {
    match e
    case Preload => LoadAllPreservesInv(s);
    case ShowAd => ShowPreservesInv(s);
    case AdDismissed => DismissPreservesInv(s);
    case AdFailedToShow(message) => FailToShowPreservesInv(s, message);
    case LoadSucceeded(slot) => CompleteLoadPreservesInv(s, slot);
    case LoadFailed(slot) => FailLoadPreservesInv(s, slot);
    case RetryDue(slot) => RetryPreservesInv(s, slot);
    case InitialLoadDue => InitialLoadPreservesInv(s);
    case _ =>
  }

  lemma {:induction false} RunPreservesInv(s: Controller, events: seq<Event>)
    requires Inv(s)
    ensures Inv(Run(s, events).state)
    decreases |events|
  {
    if |events| > 0 {
      StepPreservesInv(s, events[0]);
      RunPreservesInv(Step(s, events[0]).state, events[1..]);
    }
  }

  lemma {:induction false} ApplyPreservesInv(s: Controller, calls: seq<Call>)
    requires Inv(s)
    ensures Inv(Apply(s, calls))
    decreases |calls|
  {
    if |calls| > 0 {
      match calls[0] {
        case InitCall(adUnitId) => InitPreservesInv(s, adUnitId);
        case EventCall(e) => StepPreservesInv(s, e);
      }
      ApplyPreservesInv(ApplyCall(s, calls[0]), calls[1..]);
    }
  }

  /** Every state reachable from a freshly constructed controller, through
      `init` calls and events in any interleaving, keeps the invariant. */
  lemma ReachableInv(rotation: Rotation, calls: seq<Call>)
    ensures Inv(Apply(NewController(rotation), calls))
  {
    NewControllerInv(rotation);
    ApplyPreservesInv(NewController(rotation), calls);
  }

  // ---------------------------------------------------------------------------
  // The first load after init
  // ---------------------------------------------------------------------------

  /** The first successful `init` only starts the SDK-initialisation thread.
      With the Activity still there, the thread queues `loadAllRewardedAds`;
      when that runs, each slot is filled or loading, every request carries the
      unit id, and nothing is left pending. */
  lemma FirstInitPostsInitialLoad(s: Controller, adUnitId: string)
    requires !s.sdkInitCalled && !IsBlank(adUnitId)
    ensures var c := Init(s, adUnitId).value;
            var p := Step(c, SdkInitialised);
            var t := Step(p.state, InitialLoadDue);
            && c.initialLoad == SdkStarting
            && p.out == [] && p.state.initialLoad == LoadPosted
            && t.state.initialLoad == NotPending
            && (t.state.slotA.Some? || t.state.loadingA) && (t.state.slotB.Some? || t.state.loadingB)
            && forall i :: 0 <= i < |t.out| ==> t.out[i].LoadRequested? && t.out[i].unitId == adUnitId
  {
  }

  /** A second `init` before the first load runs, whether it comes before or
      after the thread queues that load: the load uses the second unit id,
      since it reads the field only when it runs. */
  lemma InitialLoadUsesLatestUnitId(rotation: Rotation, first: string, second: string)
    requires !IsBlank(first) && !IsBlank(second)
    ensures var c1 := Init(NewController(rotation), first).value;
            var early := Step(Step(Init(c1, second).value, SdkInitialised).state, InitialLoadDue);
            var late := Step(Init(Step(c1, SdkInitialised).state, second).value, InitialLoadDue);
            && early.out == [LoadRequested(SlotA, second), LoadRequested(SlotB, second)]
            && late.out == [LoadRequested(SlotA, second), LoadRequested(SlotB, second)]
  {
    var c1 := Init(NewController(rotation), first).value;
    var c2 := Init(c1, second).value;
    assert c2.initialLoad == SdkStarting && c2.activityAttached && c2.adUnitId == second;
    var p1 := Step(c1, SdkInitialised).state;
    assert p1.initialLoad == LoadPosted;
    var c3 := Init(p1, second).value;
    assert c3.initialLoad == LoadPosted && c3.activityAttached && c3.adUnitId == second;
  }

  /** The Activity goes away after the load is queued and before it runs: the
      load runs but requests nothing. */
  lemma ActivityLostBeforeInitialLoad(s: Controller, adUnitId: string)
    requires !s.sdkInitCalled && !IsBlank(adUnitId)
    ensures var p := Step(Init(s, adUnitId).value, SdkInitialised).state;
            var c := Step(p, ActivityReleased).state;
            var t := Step(c, InitialLoadDue);
            && c.initialLoad == LoadPosted
            && t.out == [] && t.state.initialLoad == NotPending
            && t.state.loadingA == s.loadingA && t.state.loadingB == s.loadingB
  {
  }

  /** The Activity is gone when the thread hands over the load: the load is
      dropped for good. A later `init` brings an Activity back but does not
      start the thread again, so the posted-load event finds nothing to run. */
  lemma InitialLoadDroppedWithoutActivity(s: Controller, first: string, second: string)
    requires !s.sdkInitCalled && !IsBlank(first) && !IsBlank(second)
    ensures var c := Step(Init(s, first).value, ActivityReleased).state;
            var p := Step(c, SdkInitialised);
            var c2 := Init(p.state, second).value;
            && p.out == [] && p.state.initialLoad == NotPending
            && c2.activityAttached && c2.initialLoad == NotPending
            && Step(c2, InitialLoadDue) == Transition(c2, [])
  {
  }

  // ---------------------------------------------------------------------------
  // Loads: one outstanding load per slot
  // ---------------------------------------------------------------------------

  lemma CountSingleton(o: Output, k: Kind)
    ensures Count([o], k) == if IsKind(o, k) then 1 else 0
  {
    assert [o][1..] == [];
  }

  lemma CountPair(o1: Output, o2: Output, k: Kind)
    ensures Count([o1, o2], k) == (if IsKind(o1, k) then 1 else 0) + (if IsKind(o2, k) then 1 else 0)
  {
    assert [o1, o2][1..] == [o2];
    CountSingleton(o2, k);
  }

  /** The load requests `loadAllRewardedAds` issues: one per slot that was idle
      and is now loading, and nothing else. */
  lemma LoadAllCounts(s: Controller, slot: Slot)
    ensures var t := LoadAll(s);
            Count(t.out, LoadOf(slot)) == (if !IsLoading(s, slot) && IsLoading(t.state, slot) then 1 else 0)
  {
    var t := LoadAll(s);
    var outA: seq<Output> := if s.activityAttached && s.slotA.None? && !s.loadingA then [LoadRequested(SlotA, s.adUnitId)] else [];
    var outB: seq<Output> := if s.activityAttached && s.slotB.None? && !s.loadingB then [LoadRequested(SlotB, s.adUnitId)] else [];
    assert t.out == outA + outB;
    CountConcat(outA, outB, LoadOf(slot));
    if outA != [] {
      CountSingleton(outA[0], LoadOf(slot));
    }
    if outB != [] {
      CountSingleton(outB[0], LoadOf(slot));
    }
  }

  /** A load request for a filled or already-loading slot issues nothing, and
      preloading twice in a row issues nothing the second time. */
  lemma PreloadIdempotent(s: Controller)
    ensures LoadAll(LoadAll(s).state) == Transition(LoadAll(s).state, [])
  {
  }

  /** The property `StepLoadsOnlyIdleSlots` states, for one transition. */
  predicate LoadsOnlyIdle(s: Controller, t: Transition, slot: Slot) {
    && Count(t.out, LoadOf(slot)) <= 1
    && (Count(t.out, LoadOf(slot)) == 1 ==> !IsLoading(s, slot) && IsLoading(t.state, slot))
  }

  lemma ShowLoadsOnlyIdle(s: Controller, slot: Slot)
    ensures LoadsOnlyIdle(s, Show(s), slot)
  {
    var t := Show(s);
    if !HasAvailableAd(s) {
      LoadAllCounts(s, slot);
    } else if t.out != [] {
      CountSingleton(t.out[0], LoadOf(slot));
    }
  }

  lemma DismissLoadsOnlyIdle(s: Controller, slot: Slot)
    ensures LoadsOnlyIdle(s, Dismiss(s), slot)
  {
    if s.display.Some? {
      var d := s.display.value;
      var cleared := ClearUsedAd(s, d.ad).(isShowing := false, display := None);
      var notify := if !d.rewardEarned && s.listenerSet then [RewardEarned(false)] else [];
      LoadAllCounts(cleared, slot);
      assert Count(notify, LoadOf(slot)) == 0 by {
        if notify != [] {
          CountSingleton(notify[0], LoadOf(slot));
        }
      }
      CountConcat(notify, LoadAll(cleared).out, LoadOf(slot));
    }
  }

  /** The backup show never requests a load and leaves the loading flags. */
  lemma ShowBackupLoadsNothing(c: Controller, slot: Slot)
    ensures Count(ShowBackup(c).out, LoadOf(slot)) == 0
    ensures IsLoading(ShowBackup(c).state, slot) == IsLoading(c, slot)
  {
    var backup := ShowBackup(c);
    if backup.out != [] {
      assert |backup.out| == 1;
      CountSingleton(backup.out[0], LoadOf(slot));
    }
  }

  lemma FailToShowLoadsOnlyIdle(s: Controller, message: string, slot: Slot)
    ensures LoadsOnlyIdle(s, FailToShow(s, message), slot)
  {
    var t := FailToShow(s, message);
    if s.display.Some? {
      var d := s.display.value;
      var cleared := ClearUsedAd(s, d.ad).(isShowing := false, display := None);
      var notify := if s.listenerSet then [RewardEarned(d.rewardEarned), AdShowFailed(message)] else [];
      var backup := ShowBackup(cleared);
      var reload := LoadAll(backup.state);
      assert t.out == notify + backup.out + reload.out && t.state == reload.state;
      LoadAllCounts(backup.state, slot);
      assert Count(notify, LoadOf(slot)) == 0 by {
        if notify != [] {
          CountPair(notify[0], notify[1], LoadOf(slot));
        }
      }
      ShowBackupLoadsNothing(cleared, slot);
      assert IsLoading(cleared, slot) == IsLoading(s, slot);
      CountConcat(notify, backup.out, LoadOf(slot));
      CountConcat(notify + backup.out, reload.out, LoadOf(slot));
    }
  }


  lemma RetryLoadsOnlyIdle(s: Controller, retried: Slot, slot: Slot)
    ensures LoadsOnlyIdle(s, RunRetry(s, retried), slot)
  {
    var t := RunRetry(s, retried);
    if t.out != [] {
      CountSingleton(t.out[0], LoadOf(slot));
    }
  }

  /** No step issues a second SDK load for a slot whose load is in flight, and
      a step issues at most one load per slot, leaving that slot loading. */
  lemma StepLoadsOnlyIdleSlots(s: Controller, e: Event, slot: Slot)
    ensures LoadsOnlyIdle(s, Step(s, e), slot)
  {
    match e
    case Preload => LoadAllCounts(s, slot);
    case ShowAd => ShowLoadsOnlyIdle(s, slot);
    case RetryDue(retried) => RetryLoadsOnlyIdle(s, retried, slot);
    case AdDismissed => DismissLoadsOnlyIdle(s, slot);
    case AdFailedToShow(message) => FailToShowLoadsOnlyIdle(s, message, slot);
    case InitialLoadDue =>
      if s.initialLoad == LoadPosted {
        LoadAllCounts(s.(initialLoad := NotPending), slot);
      }
    case UserEarnedReward =>
      if Step(s, e).out != [] {
        CountSingleton(Step(s, e).out[0], LoadOf(slot));
      }
    case _ =>
  }

  // ---------------------------------------------------------------------------
  // Showing: guarded display
  // ---------------------------------------------------------------------------

  /** The property `StepShowsAtMostOnce` states, for one transition. */
  predicate ShowsAtMostOnce(t: Transition) {
    && Count(t.out, AnyShow) <= 1
    && (Count(t.out, AnyShow) == 1 ==> t.state.isShowing && t.state.display.Some?)
  }

  lemma ShowShowsAtMostOnce(s: Controller)
    ensures ShowsAtMostOnce(Show(s))
    ensures s.isShowing ==> Count(Show(s).out, AnyShow) == 0
  {
    var t := Show(s);
    if !HasAvailableAd(s) {
      CountOnlyLoads(t.out, AnyShow);
    } else if t.out != [] {
      CountSingleton(t.out[0], AnyShow);
    }
  }

  lemma DismissShowsNothing(s: Controller)
    ensures Count(Dismiss(s).out, AnyShow) == 0
  {
    if s.display.Some? {
      var d := s.display.value;
      var cleared := ClearUsedAd(s, d.ad).(isShowing := false, display := None);
      var notify := if !d.rewardEarned && s.listenerSet then [RewardEarned(false)] else [];
      CountOnlyLoads(LoadAll(cleared).out, AnyShow);
      if notify != [] {
        CountSingleton(notify[0], AnyShow);
      }
      CountConcat(notify, LoadAll(cleared).out, AnyShow);
    }
  }

  /** The backup show of a controller with no display running shows at most
      one ad, and only one of the ads the controller holds. */
  lemma ShowBackupShowsHeldAd(c: Controller)
    requires c.display.None? && !c.isShowing
    ensures var backup := ShowBackup(c);
            && Count(backup.out, AnyShow) == (if HasAvailableAd(c) && c.activityAttached then 1 else 0)
            && (backup.state.display.Some? ==>
                  Some(backup.state.display.value.ad) == c.slotA || Some(backup.state.display.value.ad) == c.slotB)
  {
    var backup := ShowBackup(c);
    if backup.out != [] {
      assert |backup.out| == 1;
      CountSingleton(backup.out[0], AnyShow);
    }
  }

  /** Failure to show: a show call goes out only as the backup display, and
      the backup never shows the failed ad again. */
  lemma FailToShowShowsAtMostOnce(s: Controller, message: string)
    requires Inv(s)
    ensures ShowsAtMostOnce(FailToShow(s, message))
    ensures s.display.Some? ==>
              var cleared := ClearUsedAd(s, s.display.value.ad).(isShowing := false, display := None);
              var t := FailToShow(s, message);
              && Count(t.out, AnyShow) == (if HasAvailableAd(cleared) && s.activityAttached then 1 else 0)
              && (t.state.display.Some? ==> t.state.display.value.ad != s.display.value.ad)
  {
    var t := FailToShow(s, message);
    if s.display.Some? {
      var d := s.display.value;
      var cleared := ClearUsedAd(s, d.ad).(isShowing := false, display := None);
      var notify := if s.listenerSet then [RewardEarned(d.rewardEarned), AdShowFailed(message)] else [];
      var backup := ShowBackup(cleared);
      var reload := LoadAll(backup.state);
      assert t.out == notify + backup.out + reload.out && t.state == reload.state;
      ClearUsedAdFreesOnlyThatAd(s, d.ad);
      CountOnlyLoads(reload.out, AnyShow);
      assert Count(notify, AnyShow) == 0 by {
        if notify != [] {
          CountPair(notify[0], notify[1], AnyShow);
        }
      }
      ShowBackupShowsHeldAd(cleared);
      CountConcat(notify, backup.out, AnyShow);
      CountConcat(notify + backup.out, reload.out, AnyShow);
    }
  }

  /** A step sends at most one show call to the SDK, and only when it leaves a
      display running. While a display is running, a show request never
      reaches the SDK. */
  lemma StepShowsAtMostOnce(s: Controller, e: Event)
    requires Inv(s)
    ensures ShowsAtMostOnce(Step(s, e))
    ensures s.isShowing && e == ShowAd ==> Count(Step(s, e).out, AnyShow) == 0
    ensures Count(Step(s, e).out, AnyShow) == 1 ==> (e == ShowAd && !s.isShowing) || e.AdFailedToShow?
  {
    var t := Step(s, e);
    match e
    case Preload => CountOnlyLoads(t.out, AnyShow);
    case InitialLoadDue => CountOnlyLoads(t.out, AnyShow);
    case ShowAd => ShowShowsAtMostOnce(s);
    case RetryDue(slot) =>
      if t.out != [] {
        CountSingleton(t.out[0], AnyShow);
      }
    case AdDismissed => DismissShowsNothing(s);
    case AdFailedToShow(message) => FailToShowShowsAtMostOnce(s, message);
    case UserEarnedReward =>
      if t.out != [] {
        CountSingleton(t.out[0], AnyShow);
      }
    case _ =>
  }

  /** The rotation counter moves when the slot is chosen, before the
      already-showing guard. With the counter at 0, both slots filled and a
      display running, a show request is rejected and still advances it. */
  lemma RejectedShowStillAdvancesCounter(rotation: Rotation)
    ensures var s := NewController(rotation).(activityAttached := true, adUnitId := "unit",
                                       slotA := Some(0), slotB := Some(1), nextAd := 2,
                                       isShowing := true, display := Some(Display(1, false)));
            && Inv(s)
            && Show(s).out == []
            && Show(s).state.currentSlot == s.currentSlot + 1
  {
    var s := NewController(rotation).(activityAttached := true, adUnitId := "unit",
                              slotA := Some(0), slotB := Some(1), nextAd := 2,
                              isShowing := true, display := Some(Display(1, false)));
    assert !IsTrimmable("unit"[0]);
  }

  // ---------------------------------------------------------------------------
  // Reward notifications of one display
  // ---------------------------------------------------------------------------

  /** An event that is not one of the two display-ending callbacks. */
  predicate Continues(e: Event) {
    !e.AdDismissed? && !e.AdFailedToShow?
  }

  /** What one event that does not end the running display does to it: the
      display and its ad stay, the listener stays set, nothing is shown, no
      `onRewardEarned(false)` goes out, and a reward callback sends one
      `onRewardEarned(true)` and marks the display rewarded. */
  predicate KeepsDisplay(s: Controller, first: Transition, rewarded: bool)
    requires s.display.Some?
  {
    && first.state.display.Some? && first.state.display.value.ad == s.display.value.ad
    && first.state.listenerSet
    && Count(first.out, AnyShow) == 0
    && Count(first.out, RewardOf(false)) == 0
    && Count(first.out, RewardOf(true)) == (if rewarded then 1 else 0)
    && first.state.display.value.rewardEarned == (s.display.value.rewardEarned || rewarded)
  }

  lemma OnlyLoadsKeepDisplay(s: Controller, first: Transition)
    requires s.display.Some? && s.listenerSet
    requires OnlyLoads(first.out) && first.state.display == s.display && first.state.listenerSet
    ensures KeepsDisplay(s, first, false)
  {
    CountOnlyLoads(first.out, AnyShow);
    CountOnlyLoads(first.out, RewardOf(false));
    CountOnlyLoads(first.out, RewardOf(true));
  }

  lemma QuietKeepsDisplay(s: Controller, first: Transition)
    requires s.display.Some? && s.listenerSet
    requires first.out == [] && first.state.display == s.display && first.state.listenerSet
    ensures KeepsDisplay(s, first, false)
  {
  }

  lemma RetryKeepsDisplay(s: Controller, slot: Slot)
    requires s.display.Some? && s.listenerSet
    ensures KeepsDisplay(s, RunRetry(s, slot), false)
  {
    var first := RunRetry(s, slot);
    assert OnlyLoads(first.out) && first.state.display == s.display;
    OnlyLoadsKeepDisplay(s, first);
  }

  lemma ShowKeepsDisplay(s: Controller)
    requires Inv(s) && s.display.Some? && s.listenerSet
    ensures KeepsDisplay(s, Show(s), false)
  {
    var first := Show(s);
    assert s.isShowing && HasAvailableAd(s);
    assert first.out == [] && first.state.display == s.display;
  }

  lemma EarnRewardKeepsDisplay(s: Controller)
    requires s.display.Some? && s.listenerSet
    ensures KeepsDisplay(s, EarnReward(s), true)
  {
    var first := EarnReward(s);
    assert first.out == [RewardEarned(true)];
    CountSingleton(RewardEarned(true), AnyShow);
    CountSingleton(RewardEarned(true), RewardOf(false));
    CountSingleton(RewardEarned(true), RewardOf(true));
  }

  /** One event that does not end the running display. */
  lemma ContinueStep(s: Controller, e: Event)
    requires Inv(s) && s.display.Some? && s.listenerSet && Continues(e)
    ensures KeepsDisplay(s, Step(s, e), e == UserEarnedReward)
  {
    var first := Step(s, e);
    match e
    case Preload => OnlyLoadsKeepDisplay(s, first);
    case InitialLoadDue => OnlyLoadsKeepDisplay(s, first);
    case RetryDue(slot) => RetryKeepsDisplay(s, slot);
    case UserEarnedReward => EarnRewardKeepsDisplay(s);
    case ShowAd => ShowKeepsDisplay(s);
    case LoadSucceeded(slot) => QuietKeepsDisplay(s, CompleteLoad(s, slot));
    case LoadFailed(slot) => QuietKeepsDisplay(s, FailLoad(s, slot));
    case SetListener => QuietKeepsDisplay(s, first);
    case ActivityReleased => QuietKeepsDisplay(s, first);
    case SdkInitialised => QuietKeepsDisplay(s, first);
    case AdDismissed =>
    case AdFailedToShow(_) =>
  }


  /** While a display runs and the listener is set, no event but the two
      display-ending callbacks ends it or changes its ad; nothing is shown; no
      `onRewardEarned(false)` is sent; each reward callback sends one
      `onRewardEarned(true)` and marks the display rewarded. */
  lemma {:induction false} DuringDisplay(s: Controller, events: seq<Event>)
    requires Inv(s) && s.display.Some? && s.listenerSet
    requires forall i :: 0 <= i < |events| ==> Continues(events[i])
    ensures var t := Run(s, events);
            && Inv(t.state) && t.state.listenerSet
            && t.state.display.Some? && t.state.display.value.ad == s.display.value.ad
            && t.state.display.value.rewardEarned
               == (s.display.value.rewardEarned || RewardCallbacks(events) > 0)
            && Count(t.out, AnyShow) == 0
            && Count(t.out, RewardOf(false)) == 0
            && Count(t.out, RewardOf(true)) == RewardCallbacks(events)
    decreases |events|
  {
    if |events| > 0 {
      var e := events[0];
      var first := Step(s, e);
      StepPreservesInv(s, e);
      ContinueStep(s, e);
      assert forall i :: 0 <= i < |events[1..]| ==> Continues(events[1..][i]);
      DuringDisplay(first.state, events[1..]);
      var rest := Run(first.state, events[1..]);
      CountConcat(first.out, rest.out, AnyShow);
      CountConcat(first.out, rest.out, RewardOf(false));
      CountConcat(first.out, rest.out, RewardOf(true));
    }
  }

  lemma {:induction false} RunConcat(s: Controller, a: seq<Event>, b: seq<Event>)
    ensures var ra := Run(s, a);
            var rb := Run(ra.state, b);
            Run(s, a + b) == Transition(rb.state, ra.out + rb.out)
    decreases |a|
  {
    if |a| == 0 {
      assert a + b == b;
    } else {
      var first := Step(s, a[0]);
      assert (a + b)[0] == a[0];
      assert (a + b)[1..] == a[1..] + b;
      RunConcat(first.state, a[1..], b);
      var ra := Run(first.state, a[1..]);
      var rb := Run(ra.state, b);
      assert first.out + (ra.out + rb.out) == (first.out + ra.out) + rb.out;
    }
  }

  lemma RunSingle(s: Controller, e: Event)
    ensures Run(s, [e]) == Step(s, e)
  {
    assert [e][1..] == [];
    assert Step(s, e).out + [] == Step(s, e).out;
  }

  /** Dismissal of a display: `onRewardEarned(false)` once when the display
      was not rewarded (and never `true`), no show call, the displayed ad's
      slot freed and `isShowing` cleared. */
  lemma DismissNotifications(s: Controller)
    requires Inv(s) && s.listenerSet && s.display.Some?
    ensures var t := Dismiss(s);
            && Count(t.out, RewardOf(true)) == 0
            && Count(t.out, RewardOf(false)) == (if s.display.value.rewardEarned then 0 else 1)
            && Count(t.out, AnyShow) == 0
            && !t.state.isShowing
            && t.state.slotA != Some(s.display.value.ad) && t.state.slotB != Some(s.display.value.ad)
  {
    var t := Dismiss(s);
    var d := s.display.value;
    var cleared := ClearUsedAd(s, d.ad).(isShowing := false, display := None);
    var notify := if !d.rewardEarned then [RewardEarned(false)] else [];
    var reload := LoadAll(cleared);
    assert t.out == notify + reload.out && t.state == reload.state;
    ClearUsedAdFreesOnlyThatAd(s, d.ad);
    if notify != [] {
      CountSingleton(notify[0], RewardOf(true));
      CountSingleton(notify[0], RewardOf(false));
      CountSingleton(notify[0], AnyShow);
    }
    CountOnlyLoads(reload.out, RewardOf(true));
    CountOnlyLoads(reload.out, RewardOf(false));
    CountOnlyLoads(reload.out, AnyShow);
    CountConcat(notify, reload.out, RewardOf(true));
    CountConcat(notify, reload.out, RewardOf(false));
    CountConcat(notify, reload.out, AnyShow);
  }

  /** The reward contract of one display, from the show call to its dismissal:
      the listener hears `onRewardEarned(true)` once per reward callback, and
      `onRewardEarned(false)` exactly once if no reward fired, never otherwise.
      The displayed ad's slot is free afterwards and `isShowing` is clear. */
  lemma {:induction false} DisplayNotifications(s: Controller, events: seq<Event>)
    requires Inv(s) && s.listenerSet
    requires s.display.Some? && !s.display.value.rewardEarned
    requires forall i :: 0 <= i < |events| ==> Continues(events[i])
    ensures var t := Run(s, events + [AdDismissed]);
            && Count(t.out, RewardOf(true)) == RewardCallbacks(events)
            && Count(t.out, RewardOf(false)) == (if RewardCallbacks(events) == 0 then 1 else 0)
            && Count(t.out, AnyShow) == 0
            && !t.state.isShowing
            && t.state.slotA != Some(s.display.value.ad) && t.state.slotB != Some(s.display.value.ad)
  {
    var t := Run(s, events + [AdDismissed]);
    var mid := Run(s, events);
    var last := Dismiss(mid.state);
    DuringDisplay(s, events);
    DismissEndsDisplay(mid, s.display.value.ad, RewardCallbacks(events));
    RunThenDismiss(s, events);
    assert t.out == mid.out + last.out && t.state == last.state;
  }

  /** Running a dismissal after a sequence of events. */
  lemma RunThenDismiss(s: Controller, events: seq<Event>)
    ensures var mid := Run(s, events);
            var last := Dismiss(mid.state);
            Run(s, events + [AdDismissed]) == Transition(last.state, mid.out + last.out)
  {
    var mid := Run(s, events);
    RunConcat(s, events, [AdDismissed]);
    RunSingle(mid.state, AdDismissed);
    assert Step(mid.state, AdDismissed) == Dismiss(mid.state);
  }

  /** The dismissal that ends a display, appended to the trace of the display
      so far. */
  lemma DismissEndsDisplay(mid: Transition, ad: Ad, rewards: nat)
    requires Inv(mid.state) && mid.state.listenerSet
    requires mid.state.display.Some? && mid.state.display.value.ad == ad
    requires mid.state.display.value.rewardEarned == (rewards > 0)
    requires Count(mid.out, AnyShow) == 0 && Count(mid.out, RewardOf(false)) == 0
    requires Count(mid.out, RewardOf(true)) == rewards
    ensures var last := Dismiss(mid.state);
            && Count(mid.out + last.out, RewardOf(true)) == rewards
            && Count(mid.out + last.out, RewardOf(false)) == (if rewards == 0 then 1 else 0)
            && Count(mid.out + last.out, AnyShow) == 0
            && !last.state.isShowing
            && last.state.slotA != Some(ad) && last.state.slotB != Some(ad)
  {
    var last := Dismiss(mid.state);
    DismissNotifications(mid.state);
    CountConcat(mid.out, last.out, RewardOf(true));
    CountConcat(mid.out, last.out, RewardOf(false));
    CountConcat(mid.out, last.out, AnyShow);
  }

  /** Reward then dismissal: exactly one `true` and no `false`. */
  lemma RewardThenDismiss(s: Controller)
    requires Inv(s) && s.listenerSet
    requires s.display.Some? && !s.display.value.rewardEarned
    ensures var t := Run(s, [UserEarnedReward, AdDismissed]);
            Count(t.out, RewardOf(true)) == 1 && Count(t.out, RewardOf(false)) == 0
  {
    DisplayNotifications(s, [UserEarnedReward]);
    assert [UserEarnedReward] + [AdDismissed] == [UserEarnedReward, AdDismissed];
  }

  /** Dismissal alone: exactly one `false` and no `true`. */
  lemma DismissWithoutReward(s: Controller)
    requires Inv(s) && s.listenerSet
    requires s.display.Some? && !s.display.value.rewardEarned
    ensures var t := Run(s, [AdDismissed]);
            Count(t.out, RewardOf(true)) == 0 && Count(t.out, RewardOf(false)) == 1
  {
    DisplayNotifications(s, []);
    assert [] + [AdDismissed] == [AdDismissed];
  }

  /** With no display running, a reward callback still sends one `true`. */
  lemma LateRewardNotifies(s: Controller)
    requires s.display.None? && s.listenerSet
    ensures Run(s, [UserEarnedReward]).out == [RewardEarned(true)]
  {
    assert [UserEarnedReward][1..] == [];
  }

  /** A reward callback arriving after its display was dismissed without one:
      the reward callback has no guard, so the listener hears `false` at the
      dismissal and then `true`. */
  lemma LateRewardAfterDismissal(s: Controller)
    requires Inv(s) && s.listenerSet
    requires s.display.Some? && !s.display.value.rewardEarned
    ensures var t := Run(s, [AdDismissed, UserEarnedReward]);
            && Count(t.out, RewardOf(false)) == 1 && Count(t.out, RewardOf(true)) == 1
            && |t.out| > 0 && t.out[|t.out| - 1] == RewardEarned(true)
  {
    DismissWithoutReward(s);
    var dismissed := Run(s, [AdDismissed]);
    var late := Run(dismissed.state, [UserEarnedReward]);
    RunConcat(s, [AdDismissed], [UserEarnedReward]);
    assert [AdDismissed] + [UserEarnedReward] == [AdDismissed, UserEarnedReward];
    LateRewardNotifies(dismissed.state);
    CountConcat(dismissed.out, late.out, RewardOf(false));
    CountConcat(dismissed.out, late.out, RewardOf(true));
    CountSingleton(RewardEarned(true), RewardOf(false));
    CountSingleton(RewardEarned(true), RewardOf(true));
  }

  // ---------------------------------------------------------------------------
  // Failure to show
  // ---------------------------------------------------------------------------

  /** A failure to show frees the failed ad's slot and clears `isShowing`
      before anything else happens; the listener hears the reward flag and then
      the message, first; then exactly one backup show call goes out when the
      other slot still holds an ad (and the Activity is there), none otherwise;
      the backup never shows the failed ad again. */
  lemma FailureToShowOrder(s: Controller, message: string)
    requires Inv(s) && s.display.Some?
    ensures var d := s.display.value;
            var t := FailToShow(s, message);
            var cleared := ClearUsedAd(s, d.ad).(isShowing := false, display := None);
            var notify := if s.listenerSet then [RewardEarned(d.rewardEarned), AdShowFailed(message)] else [];
            && cleared.slotA != Some(d.ad) && cleared.slotB != Some(d.ad)
            && |notify| <= |t.out| && t.out[..|notify|] == notify
            && Count(t.out, AnyShow) == (if HasAvailableAd(cleared) && s.activityAttached then 1 else 0)
            && (t.state.display.Some? ==> t.state.display.value.ad != d.ad)
  {
    var d := s.display.value;
    var cleared := ClearUsedAd(s, d.ad).(isShowing := false, display := None);
    var notify := if s.listenerSet then [RewardEarned(d.rewardEarned), AdShowFailed(message)] else [];
    var backup := ShowBackup(cleared);
    var reload := LoadAll(backup.state);
    ClearUsedAdFreesOnlyThatAd(s, d.ad);
    FailToShowShowsAtMostOnce(s, message);
    assert (notify + backup.out + reload.out)[..|notify|] == notify;
  }

  // ---------------------------------------------------------------------------
  // Scenarios
  // ---------------------------------------------------------------------------

  /** Both slots empty and idle: a show request issues no show call and
      requests a load for slot A and then slot B, leaving both loading. */
  lemma ShowWithNothingLoaded(s: Controller)
    requires Inv(s) && s.activityAttached
    requires s.slotA.None? && s.slotB.None? && !s.loadingA && !s.loadingB
    ensures var t := Show(s);
            && t.out == [LoadRequested(SlotA, s.adUnitId), LoadRequested(SlotB, s.adUnitId)]
            && t.state.loadingA && t.state.loadingB
            && !t.state.isShowing
  {
  }

  /** Slot A ready, slot B empty, counter 0: the show request shows A's ad and
      the counter becomes 1; after dismissal slot A is empty. */
  lemma RotationScenario(s: Controller, x: Ad)
    requires Inv(s) && s.activityAttached && !s.isShowing
    requires s.slotA == Some(x) && s.slotB.None? && s.currentSlot == 0
    ensures var shown := Show(s);
            && shown.out == [ShowRequested(x)]
            && shown.state.currentSlot == 1
            && shown.state.display == Some(Display(x, false))
            && Dismiss(shown.state).state.slotA.None?
  {
  }

  /** A display of slot A's ad fails while slot B holds an ad: exactly one
      backup show call goes out, for B's ad. */
  lemma BackupScenario(s: Controller, x: Ad, y: Ad)
    requires Inv(s) && s.activityAttached
    requires s.slotA == Some(x) && s.slotB == Some(y) && s.display == Some(Display(x, false))
    ensures var t := FailToShow(s, "failed");
            && Count(t.out, AnyShow) == 1
            && t.state.display == Some(Display(y, false))
  {
    FailureToShowOrder(s, "failed");
  }

  // ---------------------------------------------------------------------------
  // The rotation counter (source defect and its correction)
  // ---------------------------------------------------------------------------

  /** For the counter values the source normally sees (0 up to the first wrap)
      the corrected selection is the written one. */
  lemma SelectMatchesSourceOnNonNegative(a: Option<Ad>, b: Option<Ad>, cursor: Int32)
    requires cursor >= 0
    ensures Select(a, b, cursor) == SelectAsWritten(a, b, cursor)
  {
  }

  /** As written, a negative odd counter makes `currentSlot.get() % 2` equal -1:
      the counter never moves again and slot B is never preferred. */
  lemma AsWrittenRotationStalls(a: Option<Ad>, b: Option<Ad>, cursor: Int32)
    requires cursor < 0 && cursor % 2 == 1
    ensures SelectAsWritten(a, b, cursor).cursor == cursor
    ensures a.Some? ==> SelectAsWritten(a, b, cursor).ad == a
  {
  }

  /** The stall is reached: from INT_MAX, two advances wrap the counter to
      INT_MIN + 1, after which slot A's ad is chosen every time. */
  lemma AsWrittenStallAfterWrap()
    ensures var a, b := Some(0), Some(1);
            var first := SelectAsWritten(a, b, INT_MAX);
            var second := SelectAsWritten(a, b, first.cursor);
            var third := SelectAsWritten(a, b, second.cursor);
            && first == Selection(b, INT_MIN)
            && second == Selection(a, INT_MIN + 1)
            && third == Selection(a, INT_MIN + 1)
  {
  }

  /** With the corrected selection and both slots filled, two consecutive
      selections always show both ads, for every counter value including the
      wrap from INT_MAX to INT_MIN. */
  lemma RotationAlternates(a: Option<Ad>, b: Option<Ad>, cursor: Int32)
    requires a.Some? && b.Some?
    ensures var first := Select(a, b, cursor);
            var second := Select(a, b, first.cursor);
            && first.cursor == Increment32(cursor)
            && PreferredSlot(first.cursor) != PreferredSlot(cursor)
            && {first.ad, second.ad} == {a, b}
  {
    IncrementFlipsParity(cursor);
  }

  /** The controller at the counter value where the code's rotation stalls
      (INT_MIN + 1), both slots filled: under the code's rule a show request
      shows slot A's ad and leaves the counter alone; under the corrected rule
      it shows slot B's ad and moves the counter on. */
  lemma ShowAtStalledCounter(s: Controller)
    requires s.activityAttached && !s.isShowing
    requires s.slotA.Some? && s.slotB.Some? && s.currentSlot == INT_MIN + 1
    ensures s.rotation == JavaRemainder ==>
              Show(s).out == [ShowRequested(s.slotA.value)] && Show(s).state.currentSlot == INT_MIN + 1
    ensures s.rotation == FloorMod ==>
              Show(s).out == [ShowRequested(s.slotB.value)] && Show(s).state.currentSlot == INT_MIN + 2
  {
  }
}

=== FILE: wrappers.dfy ===
/** Failure-compatible wrappers used across the model: `Option` stands for a Java
    reference that may be null, `Result` for a call that may throw. */
module Wrappers {

  datatype Option<+T> = None | Some(value: T) {

    /** The wrapped value, or `default` when the reference is null. */
    function GetOr(default: T): T {
      match this
      case Some(v) => v
      case None => default
    }
  }

  datatype Result<+R, +E> = Success(value: R) | Failure(error: E)
}
